=== FILE: README.md ===
# CFDBench visualisation script, modelled in Dafny

This project models `utils/visual.py` of CFDBench: the script that turns a
benchmark's 3-D arrays into one still PNG and one animated GIF per
(data type, case, variable). The model covers:

- **Render.PlotFirstFrame** models `plot_first_frame_from_npy` as written. It draws slice 0, captioned "Initial Condition", and it saves only into a directory that already exists.
- **Render.PlotFirstFrameCorrected** is the same operation, creating the image's directory first.
- **Render.CreateGif** models `create_gif_from_npy` as written. It samples slices, saves one captioned frame per sampled slice and encodes a temporary GIF. The move that should follow raises, so nothing reaches the GIF path.
- **Render.CreateGifCorrected** is the same operation with a move function that exists.
- **ColourScale** holds the colour scale shared by both renderers: the data extremes widened to at least [-0.1, 0.1], centred on 0.
- **Sampler** holds the frame-index sampler, `np.arange` with stride `n // max_frames`, cut to `max_frames` entries.
- **Driver** models the batch driver:
  - argument validation;
  - the `zip` / `range` / `vars` enumeration of targets;
  - each target's three paths;
  - the skip-if-exists loop.
- **Decimal** and **Paths** hold the pieces of Python's library that these operations rely on:
  - `f"{case:04d}"`, `str(int)` and `int(str)`;
  - `os.path.join`, `os.path.dirname` and `os.path.basename` on POSIX;
  - the directories `os.makedirs` leaves existing: the path and every parent.

Rendering is modelled as a trace. A `Trace` is the ordered list of file-system and plotting effects a call performs, plus the error it raises, if any. The effects are make-directory, save-figure, write-GIF, move, remove and remove-directory. Pixel contents are opaque. A save-figure effect records the slice, caption, axis and colour scale it draws with.

The driver is a fold over its targets. It threads the set of paths that exist through the loop, starting from those that existed before the run together with the output root, the log directory and every parent of either, which the run creates before the loop. A target's still image is dispatched only when its path is absent, and the same holds for its animation.

Modules follow the script's structure:
- `Common` holds errors and options.
- `Decimal`, `Paths`, `Sampler` and `ColourScale` are pure helpers.
- `Render` holds the two renderers.
- `Driver` holds the main block.
- `Pipeline` connects the driver's first job to the renderer that runs it.

## Model

| member | source | states |
|---|---|---|
| Sampler.Arange | utils/visual.py:92 | `np.arange` with a positive step is empty exactly when start is not below stop; otherwise it begins at start, has at most `stop - start` entries, and every entry lies in `[start, stop)` |
| Sampler.SampleIndices | utils/visual.py:91-95 | the `idx_map` has at most `max_frames` and at most `num_slices` entries, starts at slice 0 whenever the axis has slices, and only names slices that exist |
| Sampler.SampleWithinBudget | utils/visual.py:94-95 | with no more slices than the frame budget, every slice is used in order: the indices are exactly 0..n-1, and none at all for an empty axis |
| Sampler.SampleOverBudget | utils/visual.py:91-93 | over budget the stride `n // max_frames` is at least 1 and the indices are exactly the first `max_frames` multiples of it |
| Sampler.SampleWellFormed | utils/visual.py:88-95 | for every slice count, the sample has `min(n, max_frames)` strictly increasing, evenly spaced, in-range indices starting at 0 |
| Sampler.ArangeAt | utils/visual.py:92 | position k of `np.arange(start, stop, step)` exists exactly when `start + k*step < stop` and holds that value |
| Sampler.SampleFiveIntoThree | utils/visual.py:91-93 | five slices under a budget of three give slices 0, 1, 2 |
| ColourScale.SeqMin | utils/visual.py:46 | `np.min` returns an entry of the array that is at most every entry |
| ColourScale.SeqMax | utils/visual.py:47 | `np.max` returns an entry of the array that is at least every entry |
| ColourScale.ColourBounds | utils/visual.py:98-102 | fails exactly on an empty array; otherwise centre 0, `vmin <= -0.1`, `0.1 <= vmax`, every value inside the range, and each bound is either the clamp constant or a data value |
| ColourScale.BoundsAlwaysValid | utils/visual.py:46-50 | the bounds always satisfy the strictly ascending `vmin < vcenter < vmax` that the two-slope normalisation requires |
| ColourScale.BoundsAreClampedExtremes | utils/visual.py:46-47 | the bounds equal `min(-0.1, data min)` and `max(0.1, data max)` |
| ColourScale.ZeroVolumeBounds | utils/visual.py:98-99 | an all-zero volume gets exactly the scale [-0.1, 0.1] |
| Render.PlotFirstFrame | utils/visual.py:37-74 | succeeds exactly for a valid axis, a non-empty array and an image directory that already exists; a bad axis raises before anything happens; a missing directory raises at the save; on success exactly one figure is saved, at the image path, of slice 0 along the requested axis, captioned "Initial Condition", with the volume's clamped colour scale centred on 0 |
| Render.PlotFirstFrameCorrected | utils/visual.py:37-74 | creates the image's directory first, then succeeds exactly for a valid axis and a non-empty array, saving the same single figure: slice 0 along the requested axis, with the volume's clamped colour scale |
| Render.PlotFirstFrameAgreement | utils/visual.py:37-74 | where the image's directory exists, the corrected renderer saves exactly what the original saves and fails exactly when it fails; elsewhere the original fails wherever the corrected one succeeds |
| Render.CreateGif | utils/visual.py:76-145 | the GIF's directory is created first, even when the axis is then rejected; bad axis and empty array raise right after it; every call on valid input ends in the missing-move error, and nothing is ever moved or removed |
| Render.CreateGifCorrected | utils/visual.py:132-142 | succeeds exactly for a valid axis and a non-empty array; errors leave only the directory creation; success ends by removing the temporary directory |
| Render.GifFramesFollowSampler | utils/visual.py:97-136 | frame i draws sampled slice i along the requested axis, to its own temporary file, with its 1-based caption and with the whole volume's clamped colour scale, the same one the still image uses; the encoder gets the frame files in sampler order |
| Render.FrameTitle | utils/visual.py:124 | a frame caption is "Time Step " followed by a numeral that reads back as the slice index plus one |
| Render.FrameFile | utils/visual.py:126 | for a temporary directory named without a trailing separator, a frame's temporary file lies directly in it: its `dirname` is that directory |
| Render.FrameFileName | utils/visual.py:126 | the frame file's `basename` is `slice_{idx}.png`: the digits between the prefix and the extension parse back to the slice index |
| Render.FrameFileInjective | utils/visual.py:126 | two slices sharing a temporary file name are the same slice |
| Render.FrameFilesDistinct | utils/visual.py:108-129 | the frame files of a strictly increasing sample are pairwise distinct, so no frame overwrites another |
| Render.FiveSlicesThreeCaptions | utils/visual.py:109-124 | five slices along axis 0 with three frames draw slices 0, 1, 2 captioned "Time Step 1" to "Time Step 3" |
| Render.CreateGifNeverPublishes | utils/visual.py:132-142 | as written, every call raises and no effect ever writes the GIF path |
| Render.CreateGifCorrectedPublishes | utils/visual.py:132-142 | corrected, the GIF path is written exactly once, by moving the fully encoded temporary GIF; then every frame file is removed |
| Render.FrameFiles | utils/visual.py:108-129 | the `filenames` list has one entry per sampled index, the frame file of that index |
| Render.FrameSaves | utils/visual.py:109-128 | one figure per sampled index, in order, each with that index's file, caption and the shared scale |
| Decimal.NatToStringRoundTrip | utils/visual.py:124 | `int(str(n)) == n` for every natural number |
| Decimal.FormatPadded | utils/visual.py:188 | a padded numeral has at least the requested width and ends in a digit |
| Decimal.FormatPaddedRoundTrip | utils/visual.py:188 | a zero-padded numeral of any int, negative ones included, reads back as that int |
| Decimal.FormatPaddedInjective | utils/visual.py:188 | distinct case numbers get distinct case strings |
| Decimal.FormatPaddedFixedWidth | utils/visual.py:188 | a number below 10^width pads to exactly `width` digits, and it is the only such digit string with that value |
| Paths.Join | utils/visual.py:190-192 | `os.path.join` keeps its second part as a suffix and, unless that part is absolute, its first part as a prefix |
| Paths.Dirname | utils/visual.py:78 | `os.path.dirname` returns a prefix of its argument, and the empty string for a name without a separator |
| Paths.DirnameOfJoin | utils/visual.py:78 | `dirname(join(dir, name))` is `dir` for a plain file name |
| Paths.Basename | utils/visual.py:126 | the file name part of a path, as `os.path.basename` gives it, is a suffix of the path and holds no separator |
| Paths.BasenameOfJoin | utils/visual.py:126 | `basename(join(dir, name))` is `name` for a non-empty name without a separator |
| Paths.DirAndParents | utils/visual.py:181-182 | after `os.makedirs(d)` the existing paths it accounts for are exactly the non-empty paths that `d` lies at or beneath |
| Paths.WithinDirTransitive | utils/visual.py:181-182 | a path beneath a directory that is beneath another is beneath that other |
| Paths.JoinInjective | utils/visual.py:126 | joining onto one directory is injective in the relative part |
| Driver.Validate | utils/visual.py:165-170 | fails exactly when an argument check fails, reporting the first of axis, duration and list lengths in that order |
| Driver.Run | utils/visual.py:164-196 | invalid arguments raise before any directory is created or job dispatched; with valid ones, an empty output root or log directory makes its `os.makedirs` raise, after the directories before it were created; otherwise the run creates the output root and log directory, in that order, and dispatches the loop's jobs |
| Driver.StartPresent | utils/visual.py:181-191 | a path exists when the loop starts exactly when it existed before the run or is the output root, the log directory or a parent of either |
| Driver.InvalidArgumentsDoNothing | utils/visual.py:165-182 | any failing check stops the run with that check's error, having done nothing |
| Driver.CaseString | utils/visual.py:188 | the case string has at least four characters and reads back as the case number, negative ones included |
| Driver.CaseStringSpec | utils/visual.py:188 | the case string reads back as the case number; for cases 0..9999 it is the unique four-digit numeral of the case |
| Driver.TargetPaths | utils/visual.py:173-192 | the input is `{dir}/{type}/case{NNNN}/{var}.npy`, the outputs are `{out}/{name}/{type}/case{NNNN}/{var}_ic.png` and `.gif`, and the GIF's directory is the case directory |
| Driver.StillNeverAnimation | utils/visual.py:191-192 | no still-image path equals any animation path |
| Driver.Targets | utils/visual.py:185-189 | nothing is enumerated when any of the three zipped lists is empty |
| Driver.TargetsSound | utils/visual.py:185-189 | every enumerated target has a type among the entries `zip` reaches, a case inside that entry's range and one of the listed variables |
| Driver.CaseTargets | utils/visual.py:187-189 | every target of a type's block has that type and a case inside `[start, end)` |
| Driver.VarTargets | utils/visual.py:189 | one target per variable, in list order |
| Driver.CaseTargetsLength | utils/visual.py:187-189 | a type contributes one target per case in `[start, end)` per variable |
| Driver.CaseTargetsAt | utils/visual.py:187-189 | within a type, case c and variable i sit at position `(c - start) * V + i`, V being the number of variables |
| Driver.TargetsAt | utils/visual.py:185-189 | the full order is type, then case, then variable, as far as the shortest of the three zipped lists reaches, and nothing else is enumerated |
| Driver.Step | utils/visual.py:193-196 | one target's step dispatches only that target's still or animation job, each for an output absent beforehand, and leaves both outputs present |
| Driver.Loop | utils/visual.py:185-196 | after the loop the present paths are those at the start plus every target's outputs, and at most two jobs were dispatched per target |
| Driver.LoopRendersExactlyMissing | utils/visual.py:185-196 | the loop dispatches exactly the outputs missing at the start, each once, each as the still or animation job of a target; afterwards every output exists |
| Driver.StepRendersMissing | utils/visual.py:193-196 | one target dispatches its still image if absent and its animation if absent, and nothing else |
| Driver.NothingToDoWhenComplete | utils/visual.py:193-196 | when every output exists, nothing is dispatched |
| Driver.RunStartsWithStill | utils/visual.py:184-191 | when the first target's still image is missing at the start of the loop, a run with valid arguments and a non-empty output root and log directory dispatches it first |
| Driver.RunRendersExactlyMissing | utils/visual.py:164-196 | a run with valid arguments and a non-empty output root and log directory dispatches each output of the enumerated targets exactly once when it is missing at the start of the loop, and nothing else; the output root, the log directory and their parents, all created by the run, count as existing |
| Driver.RerunIsNoop | utils/visual.py:164-196 | for valid arguments and a non-empty output root and log directory, after a run whose jobs completed, running again with the same arguments dispatches nothing |
| Driver.FirstJobIsStill | utils/visual.py:193-194 | when the first target's still image is absent, the loop's first job renders it |
| Driver.GifDirIsCaseDir | utils/visual.py:78 | for a non-empty output directory without a trailing separator and non-empty name, type and variable without separators, the directory `create_gif_from_npy` creates first is the target's case directory `{out}/{name}/{type}/case{NNNN}` |
| Pipeline.CaseDirMissing | utils/visual.py:181-191 | for a non-empty output directory without a trailing separator and non-empty name, type and variable without separators, the still image's directory is the case directory; when no existing path and not the log directory lie at or under it, the run's own `os.makedirs` calls, which also create every parent, do not make it exist, and the still image is absent when the loop starts |
| Pipeline.NothingStartsWithinCaseDir | utils/visual.py:181-182 | under the same conditions, no path present when the loop starts lies at or under the case directory |
| Pipeline.FirstStillFailsOnFreshTree | utils/visual.py:181-194 | on an output tree with nothing at or under the first target's case directory, and a non-empty log directory outside it, the run's first job is that target's still image and the renderer as written raises on it |

## Left out

- Loading arrays (`np.load`): the volume is a parameter of the renderers. Its shape and its flattened values are given separately, and their consistency is not enforced. Load errors and the raising of `np.load` before the axis check in `plot_first_frame_from_npy` are not modelled.
- Drawing: colour maps, colour bars, axis hiding, `bbox_inches` trimming, reading PNGs back and GIF encoding are opaque effects. A figure is identified by path, caption, axis, slice index and colour scale.
- Floating point: data values and durations are reals, so NaN and infinities are absent. With NaN in the data, `np.min` would return NaN and the clamp would depend on argument order. That case is not modelled.
- The logger (`setup_logger`), log-file creation and the success messages are left out. Note that `if not logger.handlers` attaches handlers only to the first logger configured in a process, so later types log to the first type's file.
- The temporary directory passed to `create_gif_from_npy` is `{temp_dir}/{sha256 of the arguments}`. Hashing is not modelled: the renderers take the temporary directory as a parameter, and the driver's jobs carry only their input and output paths. The axis, duration and frame budget a job is rendered with are the run's arguments (see `Render`).
- Argument parsing (`argparse` types, missing list arguments that would be `None`) is left out. The driver receives already-typed lists.
- Driver.Run: the plan assumes every dispatched job completes and creates its output, as the corrected renderers do. In the script, the first exception a renderer raises ends the whole run. As written, that is the first dispatched job that is either a missing GIF or a still image whose case directory is missing (see Findings).
- Driver.Run: `os.makedirs` is modelled as failing only on the empty path. A path that names an existing regular file, or has one as a parent, raises `FileExistsError` or `NotADirectoryError` in the script; the model's set of existing paths does not tell files from directories, so those failures, and permission errors, are not modelled.
- Sampler.SampleIndices requires `max_frames >= 1`. A zero budget raises `ZeroDivisionError` in `num_slices // max_frames` when the axis has slices; with none, the test `num_slices > max_frames` fails and `np.arange(0)` is taken. A negative budget with slices gives a negative step, so `np.arange(0, num_slices, step)` is empty and no frame is drawn. With no slices the step is `0 // max_frames == 0`, and `np.arange` raises before `np.min` is reached. Neither budget is modelled.
- Driver.TargetPaths states the exact path strings only for non-empty directory and component names that contain no separator. `Join` itself models every case, including absolute components.
- Driver.GifDirIsCaseDir holds only for the same plain names. With a variable such as `a/b`, the GIF lies in `{case dir}/a`, not in the case directory itself.
- Pipeline.CaseDirMissing holds only for the same plain names. With a variable such as `a/b`, the still image lies in `{case dir}/a`, not in the case directory itself.
- Render.CreateGif and Render.PlotFirstFrameCorrected treat directory creation as always succeeding. `os.makedirs("")` raises when the GIF path has no directory part; the driver's paths always have one.
- Paths.Join and Paths.Dirname follow POSIX `posixpath`. Windows path rules are not modelled.
- Render.PlotFirstFrame decides whether a directory exists by comparing path text. A directory named through `.`, `..`, doubled separators, a symbolic link or a mix of relative and absolute paths is not recognised as the same directory. Paths.DirAndParents and the driver's existence test compare path text in the same way.
- Render.CreateGifNeverPublishes assumes the GIF path is not one of the temporary files. A caller passing `temp_dir/temp.gif` as the output would see that file written.
- Case numbers are unbounded integers, as in Python; no fixed-width overflow applies.
- Sampler.SampleIndices does not check the slice count, and `np.arange(0)` is empty. In the script an empty axis never reaches the frame loop, because the array then has no entries and `np.min` raises first. In the model that holds only for a `Volume` whose shape and values agree, which is not enforced (see the first line of this section).

## Findings

| source | as written | input that shows it | evidently intended | confidence | as-written member | corrected member |
|---|---|---|---|---|---|---|
| utils/visual.py:70 | the still image is saved with `plt.savefig` into the case directory, which nothing has created yet: the run creates only `{out_dir}/{name}` and the log directory, and the case directory is made later by `create_gif_from_npy` | a first run on an empty output tree, with the log directory outside the case directories: the first target's still image is dispatched first and its save raises `FileNotFoundError` | create the image's directory before saving, as `create_gif_from_npy` does for the GIF at line 78 | high; not executed | Render.PlotFirstFrame, Pipeline.FirstStillFailsOnFreshTree | Render.PlotFirstFrameCorrected, Render.PlotFirstFrameAgreement |
| utils/visual.py:138 | the temporary GIF is moved with `os.move`, which Python's `os` module does not provide, so the call raises `AttributeError` | any call with axis 0..2 and a non-empty array, e.g. a 5x4x4 volume, axis 0, three frames | move the encoded temporary GIF to the output path (`shutil.move` or `os.replace`), then remove the frame files and the temporary directory | high; not executed | Render.CreateGif, Render.CreateGifNeverPublishes | Render.CreateGifCorrected, Render.CreateGifCorrectedPublishes |

=== FILE: colour.dfy ===
/**
 The colour scale shared by the still image and every animation frame: the
 volume's extremes widened to at least [-0.1, 0.1], with 0 pinned to the
 centre colour of a two-slope normalisation.
 */
module ColourScale {
  import opened Common

  /** A two-slope normalisation `TwoSlopeNorm(vmin, vcenter, vmax)`. */
  datatype Norm = Norm(vmin: real, vcenter: real, vmax: real)

  /** The normalisation only accepts strictly ascending bounds around its centre. */
  predicate ValidNorm(n: Norm)
  {
    n.vmin < n.vcenter < n.vmax
  }

  /** Python's two-argument `min(a, b)`: `b` only when it is strictly smaller. */
  function Min2(a: real, b: real): real
  {
    if b < a then b else a
  }

  /** Python's two-argument `max(a, b)`: `b` only when it is strictly larger. */
  function Max2(a: real, b: real): real
  {
    if b > a then b else a
  }

  /** Smallest entry of a non-empty array (`np.min`). */
  function SeqMin(s: seq<real>): (r: real)
    requires |s| > 0
    ensures r in s
    ensures forall i :: 0 <= i < |s| ==> r <= s[i]
  {
    if |s| == 1 then s[0] else Min2(s[0], SeqMin(s[1..]))
  }

  /** Largest entry of a non-empty array (`np.max`). */
  function SeqMax(s: seq<real>): (r: real)
    requires |s| > 0
    ensures r in s
    ensures forall i :: 0 <= i < |s| ==> s[i] <= r
  {
    if |s| == 1 then s[0] else Max2(s[0], SeqMax(s[1..]))
  }

  /**
   The colour scale of a whole volume (given as its flattened values). A
   zero-size volume makes the reduction fail; otherwise the lower bound is the
   smaller of -0.1 and the data minimum and the upper bound the larger of 0.1
   and the data maximum, with centre 0.
   */
  function ColourBounds(values: seq<real>): (r: Result<Norm>)
    ensures r.Err? <==> |values| == 0
    ensures r.Err? ==> r.error == EmptyArray
    ensures r.Ok? ==> r.value.vcenter == 0.0
    ensures r.Ok? ==> r.value.vmin <= -0.1 && 0.1 <= r.value.vmax
    ensures r.Ok? ==> forall i :: 0 <= i < |values| ==> r.value.vmin <= values[i] <= r.value.vmax
    ensures r.Ok? ==> (r.value.vmin == -0.1 || r.value.vmin in values)
    ensures r.Ok? ==> (r.value.vmax == 0.1 || r.value.vmax in values)
  {
    if |values| == 0 then Err(EmptyArray)
    else Ok(Norm(Min2(-0.1, SeqMin(values)), 0.0, Max2(0.1, SeqMax(values))))
  }

  /** The clamped bounds always form a valid normalisation: `vmin <= -0.1 < 0 < 0.1 <= vmax`. */
  lemma BoundsAlwaysValid(values: seq<real>)
    requires |values| > 0
    ensures ColourBounds(values).Ok?
    ensures ValidNorm(ColourBounds(values).value)
    ensures ColourBounds(values).value.vmin <= -0.1 < 0.0 < 0.1 <= ColourBounds(values).value.vmax
  {
  }

  /**
   The bounds are exactly `min(-0.1, data min)` and `max(0.1, data max)`,
   stated against any lower bound `lo` and upper bound `hi` of the data that
   the data attains.
   */
  lemma BoundsAreClampedExtremes(values: seq<real>, lo: real, hi: real)
    requires lo in values && hi in values
    requires forall i :: 0 <= i < |values| ==> lo <= values[i] <= hi
    ensures ColourBounds(values).Ok?
    ensures ColourBounds(values).value.vmin == (if lo < -0.1 then lo else -0.1)
    ensures ColourBounds(values).value.vmax == (if hi > 0.1 then hi else 0.1)
  {
    var n := ColourBounds(values).value;
    if n.vmin != -0.1 {
      var k :| 0 <= k < |values| && values[k] == n.vmin;
    }
    if n.vmax != 0.1 {
      var k :| 0 <= k < |values| && values[k] == n.vmax;
    }
  }

  /** An all-zero volume gets the minimal scale [-0.1, 0.1]. */
  lemma ZeroVolumeBounds(values: seq<real>)
    requires |values| > 0
    requires forall i :: 0 <= i < |values| ==> values[i] == 0.0
    ensures ColourBounds(values) == Ok(Norm(-0.1, 0.0, 0.1))
  {
    assert values[0] == 0.0;
    BoundsAreClampedExtremes(values, 0.0, 0.0);
  }
}

=== FILE: common.dfy ===
/** Shared result types and the errors the visualisation script raises. */
module Common {

  /** A value that may be absent. */
  datatype Option<+T> = None | Some(value: T)

  /** Either a value or the error the script would raise instead. */
  datatype Result<+T> = Ok(value: T) | Err(error: Error)

  /** The exceptions the script raises, one constructor per distinct cause. */
  datatype Error =
    | AxisOutOfRange        // ValueError("Axis must be 0, 1, or 2")
    | NonPositiveDuration   // ValueError("Duration must be positive")
    | LengthMismatch        // ValueError on types / cases_start / cases_end
    | EmptyArray            // ValueError from np.min / np.max on a zero-size array
    | MissingMoveFunction   // AttributeError: the os module has no `move`
    | MissingDirectory      // FileNotFoundError: saving into a directory that does not exist
    | EmptyPathName         // FileNotFoundError: os.makedirs('') has no directory to create

  /** A slicing axis is valid exactly when it names one of the three array axes. */
  predicate ValidAxis(axis: int)
  {
    !(axis < 0 || axis > 2)
  }
}

=== FILE: decimal.dfy ===
/**
 Decimal rendering of integers as Python's format mini-language produces it:
 plain `{n}` for a non-negative integer, and `{n:0Wd}` (sign-aware zero
 padding to width W) for case ids; plus the `int(...)` parse that inverts both.
 */
module Decimal {
  import opened Common

  predicate IsDigit(c: char)
  {
    '0' <= c <= '9'
  }

  predicate AllDigits(s: string)
  {
    forall i :: 0 <= i < |s| ==> IsDigit(s[i])
  }

  function DigitChar(d: nat): (c: char)
    requires d < 10
    ensures IsDigit(c)
  {
    ('0' as int + d) as char
  }

  function DigitValue(c: char): (d: nat)
    requires IsDigit(c)
    ensures d < 10
  {
    c as int - '0' as int
  }

  /** Shortest decimal numeral of `n`, as `str(n)` gives it. */
  function NatToString(n: nat): (s: string)
    ensures 1 <= |s|
    ensures AllDigits(s)
  {
    if n < 10 then [DigitChar(n)] else NatToString(n / 10) + [DigitChar(n % 10)]
  }

  /** The number a string of decimal digits denotes (leading zeros allowed). */
  function DigitsValue(s: string): nat
    requires AllDigits(s)
  {
    if |s| == 0 then 0 else DigitsValue(s[..|s| - 1]) * 10 + DigitValue(s[|s| - 1])
  }

  function Zeros(k: nat): (z: string)
    ensures |z| == k
    ensures AllDigits(z)
  {
    seq(k, _ => '0')
  }

  function Pow10(k: nat): (p: nat)
    ensures p >= 1
  {
    if k == 0 then 1 else 10 * Pow10(k - 1)
  }

  /** `s` left-padded with '0' up to `width` characters. */
  function PadZeros(s: string, width: int): string
  {
    Zeros(if width > |s| then width - |s| else 0) + s
  }

  /** Python's `f"{n:0{width}d}"`: the sign counts towards the width and the zeros go after it. */
  function FormatPadded(n: int, width: nat): (s: string)
    ensures 1 <= |s|
    ensures |s| >= width
    ensures IsDigit(s[|s| - 1])
  {
    if n >= 0 then PadZeros(NatToString(n), width)
    else "-" + PadZeros(NatToString(-n), width - 1)
  }

  /** Python's `int(s)` restricted to an optional '-' followed by decimal digits. */
  function ParseInt(s: string): Option<int>
  {
    if |s| >= 2 && s[0] == '-' && AllDigits(s[1..]) then Some(-(DigitsValue(s[1..]) as int))
    else if |s| >= 1 && AllDigits(s) then Some(DigitsValue(s) as int)
    else None
  }

  /** Reading back the numeral of `n` gives `n`. */
  lemma {:induction false} NatToStringRoundTrip(n: nat)
    ensures DigitsValue(NatToString(n)) == n
    decreases n
  {
    var s := NatToString(n);
    if n >= 10 {
      NatToStringRoundTrip(n / 10);
      assert s[..|s| - 1] == NatToString(n / 10);
    }
  }

  /** Leading zeros do not change the value of a numeral. */
  lemma {:induction false} LeadingZerosIgnored(k: nat, s: string)
    requires AllDigits(s)
    ensures DigitsValue(Zeros(k) + s) == DigitsValue(s)
    decreases |s|
  {
    var t := Zeros(k) + s;
    if |s| == 0 {
      assert t == Zeros(k);
      AllZerosValue(k);
    } else {
      assert t[..|t| - 1] == Zeros(k) + s[..|s| - 1];
      LeadingZerosIgnored(k, s[..|s| - 1]);
    }
  }

  lemma {:induction false} AllZerosValue(k: nat)
    ensures DigitsValue(Zeros(k)) == 0
    decreases k
  {
    if k > 0 {
      assert Zeros(k)[..k - 1] == Zeros(k - 1);
      AllZerosValue(k - 1);
    }
  }

  /** A number below 10^w needs at most w digits. */
  lemma {:induction false} NatToStringLength(n: nat, w: nat)
    requires 1 <= w
    requires n < Pow10(w)
    ensures |NatToString(n)| <= w
    decreases n
  {
    if n >= 10 {
      assert n / 10 < Pow10(w - 1);
      NatToStringLength(n / 10, w - 1);
    }
  }

  /** Two digit strings of the same length with the same value are the same string. */
  lemma {:induction false} DigitsValueInjective(s: string, t: string)
    requires AllDigits(s) && AllDigits(t)
    requires |s| == |t|
    requires DigitsValue(s) == DigitsValue(t)
    ensures s == t
    decreases |s|
  {
    if |s| > 0 {
      var n := |s| - 1;
      var a, b := DigitValue(s[n]), DigitValue(t[n]);
      var p, q := DigitsValue(s[..n]), DigitsValue(t[..n]);
      assert p * 10 + a == q * 10 + b;
      assert a == b && p == q;
      DigitsValueInjective(s[..n], t[..n]);
      assert s == s[..n] + [s[n]];
      assert t == t[..n] + [t[n]];
    }
  }

  /** Every padded rendering of a non-negative number is a digit string with the number's value. */
  lemma PaddedValue(n: nat, width: int)
    ensures AllDigits(PadZeros(NatToString(n), width))
    ensures DigitsValue(PadZeros(NatToString(n), width)) == n
  {
    var s := NatToString(n);
    var k: nat := if width > |s| then width - |s| else 0;
    LeadingZerosIgnored(k, s);
    NatToStringRoundTrip(n);
  }

  /** `int(f"{n:0{w}d}") == n` for every integer `n` and width `w`. */
  lemma FormatPaddedRoundTrip(n: int, width: nat)
    ensures ParseInt(FormatPadded(n, width)) == Some(n)
  {
    var s := FormatPadded(n, width);
    if n >= 0 {
      var p := PadZeros(NatToString(n), width);
      PaddedValue(n, width);
      assert s == p;
      assert IsDigit(s[0]);
    } else {
      var p := PadZeros(NatToString(-n), width - 1);
      PaddedValue(-n, width - 1);
      assert s == "-" + p;
      assert s[1..] == p;
      assert |p| >= 1;
    }
  }

  /** Distinct integers never share a padded rendering. */
  lemma FormatPaddedInjective(m: int, n: int, width: nat)
    requires FormatPadded(m, width) == FormatPadded(n, width)
    ensures m == n
  {
    FormatPaddedRoundTrip(m, width);
    FormatPaddedRoundTrip(n, width);
  }

  /**
   For `0 <= n < 10^w` the padded rendering is the unique w-digit numeral of `n`:
   exactly `w` characters, all digits, with value `n`, and any other such string is it.
   */
  lemma FormatPaddedFixedWidth(n: int, width: nat, other: string)
    requires 1 <= width
    requires 0 <= n < Pow10(width)
    ensures |FormatPadded(n, width)| == width
    ensures AllDigits(FormatPadded(n, width))
    ensures DigitsValue(FormatPadded(n, width)) == n
    ensures |other| == width && AllDigits(other) && DigitsValue(other) == n ==> other == FormatPadded(n, width)
  {
    NatToStringLength(n, width);
    PaddedValue(n, width);
    if |other| == width && AllDigits(other) && DigitsValue(other) == n {
      DigitsValueInjective(other, FormatPadded(n, width));
    }
  }
}

=== FILE: driver.dfy ===
/**
 The batch driver of the script's main block: argument validation, the
 enumeration of (type, case, variable) targets, the naming of each target's
 input and outputs, and the skip-if-exists loop. The file system is the set of
 paths that exist; rendering a target's output adds its path to that set.
 */
module Driver {
  import opened Common
  import opened Decimal
  import opened Paths

  /**
   The command-line arguments of the main block. `tempDir` and `maxFrames` are
   only passed on to the animation renderer (through the hashed temporary
   directory and the frame budget); the driver's own logic does not read them.
   */
  datatype Config = Config(
    name: string,
    dir: string,
    logDir: string,
    tempDir: string,
    outDir: string,
    vars: seq<string>,
    types: seq<string>,
    casesStart: seq<int>,
    casesEnd: seq<int>,
    axis: int,
    duration: real,
    maxFrames: int)

  /** The three argument checks, all of which must hold before any directory is created. */
  predicate ArgumentsValid(c: Config)
  {
    && 0 <= c.axis <= 2
    && c.duration > 0.0
    && |c.types| == |c.casesStart| == |c.casesEnd|
  }

  /** The error of the first failing argument check, in the script's order (axis, duration, lengths). */
  function Validate(c: Config): (r: Option<Error>)
    ensures r.None? <==> ArgumentsValid(c)
    ensures r == Some(AxisOutOfRange) <==> !(0 <= c.axis <= 2)
    ensures r == Some(NonPositiveDuration) <==> 0 <= c.axis <= 2 && c.duration <= 0.0
    ensures r == Some(LengthMismatch) <==>
      0 <= c.axis <= 2 && 0.0 < c.duration && !(|c.types| == |c.casesStart| == |c.casesEnd|)
  {
    if c.axis < 0 || c.axis > 2 then Some(AxisOutOfRange)
    else if c.duration <= 0.0 then Some(NonPositiveDuration)
    else if |c.types| != |c.casesStart| || |c.casesStart| != |c.casesEnd| then Some(LengthMismatch)
    else None
  }

  /** One array file to visualise: data type, case number and variable name. */
  datatype Target = Target(typeName: string, caseId: int, variable: string)

  /** `f"{case:04d}"`: at least four characters, reading back as the case number. */
  function CaseString(caseId: int): (r: string)
    ensures |r| >= 4
    ensures ParseInt(r) == Some(caseId)
  {
    FormatPaddedRoundTrip(caseId, 4);
    FormatPadded(caseId, 4)
  }

  /** `os.path.join(args.out_dir, args.name)`. */
  function OutRoot(c: Config): string
  {
    Join(c.outDir, c.name)
  }

  /** `os.path.join(root, type, f"case{NNNN}")`. */
  function CaseDir(root: string, t: Target): string
  {
    Join(Join(root, t.typeName), "case" + CaseString(t.caseId))
  }

  function NpyPath(c: Config, t: Target): string
  {
    Join(CaseDir(c.dir, t), t.variable + ".npy")
  }

  function ImgPath(c: Config, t: Target): string
  {
    Join(CaseDir(OutRoot(c), t), t.variable + "_ic.png")
  }

  function GifPath(c: Config, t: Target): string
  {
    Join(CaseDir(OutRoot(c), t), t.variable + ".gif")
  }

  /** The targets of one case: one per variable, in the order of `vars`. */
  function VarTargets(typeName: string, caseId: int, vars: seq<string>): (r: seq<Target>)
    ensures |r| == |vars|
    ensures forall i :: 0 <= i < |vars| ==> r[i] == Target(typeName, caseId, vars[i])
  {
    seq(|vars|, i requires 0 <= i < |vars| => Target(typeName, caseId, vars[i]))
  }

  /** `for case in range(lo, hi): for var in vars`. */
  function CaseTargets(typeName: string, lo: int, hi: int, vars: seq<string>): (r: seq<Target>)
    ensures forall k :: 0 <= k < |r| ==> r[k].typeName == typeName && lo <= r[k].caseId < hi
    decreases hi - lo
  {
    if lo >= hi then [] else VarTargets(typeName, lo, vars) + CaseTargets(typeName, lo + 1, hi, vars)
  }

  /** `for type, start, end in zip(types, cases_start, cases_end)`, which stops at the shortest list. */
  function Targets(types: seq<string>, starts: seq<int>, ends: seq<int>, vars: seq<string>): (r: seq<Target>)
    ensures ZipLength(types, starts, ends) == 0 ==> r == []
    decreases |types|
  {
    if |types| == 0 || |starts| == 0 || |ends| == 0 then []
    else CaseTargets(types[0], starts[0], ends[0], vars) + Targets(types[1..], starts[1..], ends[1..], vars)
  }

  /** `t` is in the case range of one of the type entries that `zip` reaches. */
  predicate FromZippedType(t: Target, types: seq<string>, starts: seq<int>, ends: seq<int>)
  {
    exists j :: 0 <= j < ZipLength(types, starts, ends) && t.typeName == types[j] && starts[j] <= t.caseId < ends[j]
  }

  function ZipLength(types: seq<string>, starts: seq<int>, ends: seq<int>): (n: nat)
    ensures n <= |types| && n <= |starts| && n <= |ends|
  {
    var m := if |types| < |starts| then |types| else |starts|;
    if m < |ends| then m else |ends|
  }

  /** Number of cases in the half-open range `[lo, hi)`. */
  function Span(lo: int, hi: int): nat
  {
    if lo < hi then hi - lo else 0
  }

  /** Position of the `i`-th variable of the `caseIndex`-th case when every case has `width` variables. */
  function Position(caseIndex: nat, width: nat, i: nat): nat
  {
    caseIndex * width + i
  }

  /** Number of targets enumerated before the `k`-th type. */
  function BlockOffset(starts: seq<int>, ends: seq<int>, width: nat, k: nat): nat
    requires k <= |starts| && k <= |ends|
    decreases k
  {
    if k == 0 then 0 else Span(starts[0], ends[0]) * width + BlockOffset(starts[1..], ends[1..], width, k - 1)
  }

  /** The input array and the two outputs of one target. */
  datatype TargetFiles = TargetFiles(npy: string, img: string, gif: string)

  function FilesOf(c: Config, t: Target): TargetFiles
  {
    TargetFiles(NpyPath(c, t), ImgPath(c, t), GifPath(c, t))
  }

  function FilesOfAll(c: Config, targets: seq<Target>): (r: seq<TargetFiles>)
    ensures |r| == |targets|
    ensures forall i :: 0 <= i < |targets| ==> r[i] == FilesOf(c, targets[i])
  {
    seq(|targets|, i requires 0 <= i < |targets| => FilesOf(c, targets[i]))
  }

  /** A unit of rendering work the loop dispatches. */
  datatype Job =
    | RenderStill(npy: string, img: string)   // plot_first_frame_from_npy
    | RenderGif(npy: string, gif: string)     // create_gif_from_npy

  function Output(j: Job): string
  {
    match j
    case RenderStill(_, img) => img
    case RenderGif(_, gif) => gif
  }

  /** `j` is the still or the animation job of the target with files `f`. */
  predicate JobOf(j: Job, f: TargetFiles)
  {
    j == RenderStill(f.npy, f.img) || j == RenderGif(f.npy, f.gif)
  }

  /** The jobs dispatched so far and the paths that exist after them. */
  datatype Plan = Plan(jobs: seq<Job>, present: set<string>)

  /**
   The body of the innermost loop for one target: the still image is rendered
   only if its path is absent, then the animation only if its path is absent.
   */
  function Step(f: TargetFiles, present: set<string>): (r: Plan)
    ensures r.present == present + {f.img, f.gif}
    ensures forall k :: 0 <= k < |r.jobs| ==> JobOf(r.jobs[k], f) && Output(r.jobs[k]) !in present
  {
    var still := if f.img in present then [] else [RenderStill(f.npy, f.img)];
    var afterStill := present + {f.img};
    var anim := if f.gif in afterStill then [] else [RenderGif(f.npy, f.gif)];
    Plan(still + anim, afterStill + {f.gif})
  }

  /** The whole loop: the targets in order, each seeing the paths its predecessors produced. */
  function Loop(files: seq<TargetFiles>, present: set<string>): (r: Plan)
    ensures r.present == present + Outputs(files)
    ensures |r.jobs| <= 2 * |files|
    decreases |files|
  {
    if |files| == 0 then Plan([], present)
    else
      var first := Step(files[0], present);
      var rest := Loop(files[1..], first.present);
      Plan(first.jobs + rest.jobs, rest.present)
  }

  /** Every output path of the given targets. */
  function Outputs(files: seq<TargetFiles>): set<string>
    decreases |files|
  {
    if |files| == 0 then {} else {files[0].img, files[0].gif} + Outputs(files[1..])
  }

  function JobOutputs(jobs: seq<Job>): set<string>
  {
    set k | 0 <= k < |jobs| :: Output(jobs[k])
  }

  /** What one run does: directories created, rendering jobs dispatched, and the error it stops with. */
  datatype DriverRun = DriverRun(created: seq<string>, jobs: seq<Job>, error: Option<Error>)

  /**
   The paths `os.path.exists` sees when the loop starts: those that existed
   before the run, and the output root and the log directory together with
   every parent that the two `os.makedirs` calls created.
   */
  function StartPresent(c: Config, existing: set<string>): (r: set<string>)
    ensures forall p :: p in r <==>
      p in existing || (|p| > 0 && (WithinDir(OutRoot(c), p) || WithinDir(c.logDir, p)))
  {
    existing + DirAndParents(OutRoot(c)) + DirAndParents(c.logDir)
  }

  /**
   Both directories the main block creates have a name: `os.makedirs('')`
   raises `FileNotFoundError`, so an empty output root or log directory stops
   the run at its `makedirs` call.
   */
  predicate DirectoriesNamed(c: Config)
  {
    OutRoot(c) != "" && c.logDir != ""
  }

  /** The main block, from argument checking to the end of the loop, against the paths that exist at start. */
  function Run(c: Config, existing: set<string>): (r: DriverRun)
    ensures r.error.Some? <==> !ArgumentsValid(c) || !DirectoriesNamed(c)
    ensures r.error.Some? ==> r.jobs == []
    ensures !ArgumentsValid(c) ==> r.created == [] && r.error == Validate(c)
    ensures ArgumentsValid(c) && !DirectoriesNamed(c) ==>
      && r.error == Some(EmptyPathName)
      && (OutRoot(c) == "" ==> r.created == [])
      && (OutRoot(c) != "" ==> r.created == [OutRoot(c)])
    ensures r.error.None? ==> r.created == [OutRoot(c), c.logDir]
  {
    match Validate(c)
    case Some(e) => DriverRun([], [], Some(e))
    case None =>
      if OutRoot(c) == "" then DriverRun([], [], Some(EmptyPathName))
      else if c.logDir == "" then DriverRun([OutRoot(c)], [], Some(EmptyPathName))
      else
        var plan := Loop(FilesOfAll(c, Targets(c.types, c.casesStart, c.casesEnd, c.vars)), StartPresent(c, existing));
        DriverRun([OutRoot(c), c.logDir], plan.jobs, None)
  }

  // ---------------------------------------------------------------------------
  // Naming

  /**
   The case string is Python's `{case:04d}`: it always reads back as the case
   number, and for `0 <= case < 10000` it is the unique four-digit numeral.
   */
  lemma CaseStringSpec(caseId: int, other: string)
    ensures ParseInt(CaseString(caseId)) == Some(caseId)
    ensures 0 <= caseId < 10000 ==>
      && |CaseString(caseId)| == 4
      && AllDigits(CaseString(caseId))
      && DigitsValue(CaseString(caseId)) == caseId
      && (|other| == 4 && AllDigits(other) && DigitsValue(other) == caseId ==> other == CaseString(caseId))
  {
    FormatPaddedRoundTrip(caseId, 4);
    if 0 <= caseId < 10000 {
      assert Pow10(4) == 10000 by {
        assert Pow10(1) == 10;
        assert Pow10(2) == 100;
        assert Pow10(3) == 1000;
      }
      FormatPaddedFixedWidth(caseId, 4, other);
    }
  }

  /** A target's still image and any target's animation never share a path. */
  lemma StillNeverAnimation(c: Config, t: Target, u: Target)
    ensures ImgPath(c, t) != GifPath(c, u)
  {
    var a, b := t.variable + "_ic.png", u.variable + ".gif";
    JoinKeepsLast(CaseDir(OutRoot(c), t), a);
    JoinKeepsLast(CaseDir(OutRoot(c), u), b);
    assert a[|a| - 1] == 'g' && b[|b| - 1] == 'f';
  }

  /**
   With plain directory and component names, the three files of a target are
   `{dir}/{type}/case{NNNN}/{var}.npy`, `{out}/{name}/{type}/case{NNNN}/{var}_ic.png`
   and `{out}/{name}/{type}/case{NNNN}/{var}.gif`, and the directory
   `create_gif_from_npy` creates first is the target's case directory.
   */
  lemma TargetPaths(c: Config, t: Target)
    requires PlainDir(c.dir) && PlainDir(c.outDir) && PlainName(c.name)
    requires PlainName(t.typeName) && PlainName(t.variable)
    ensures NpyPath(c, t) == c.dir + "/" + t.typeName + "/case" + CaseString(t.caseId) + "/" + t.variable + ".npy"
    ensures ImgPath(c, t) == c.outDir + "/" + c.name + "/" + t.typeName + "/case" + CaseString(t.caseId)
                             + "/" + t.variable + "_ic.png"
    ensures GifPath(c, t) == c.outDir + "/" + c.name + "/" + t.typeName + "/case" + CaseString(t.caseId)
                             + "/" + t.variable + ".gif"
    ensures Dirname(GifPath(c, t)) == c.outDir + "/" + c.name + "/" + t.typeName + "/case" + CaseString(t.caseId)
  {
    OutRootPlain(c);
    FileInCase(c.dir, t, ".npy");
    FileInCase(OutRoot(c), t, "_ic.png");
    FileInCase(OutRoot(c), t, ".gif");
    GifDirIsCaseDir(c, t);
  }

  /** The directory `create_gif_from_npy` creates first is the target's case directory. */
  lemma GifDirIsCaseDir(c: Config, t: Target)
    requires PlainDir(c.outDir) && PlainName(c.name)
    requires PlainName(t.typeName) && PlainName(t.variable)
    ensures Dirname(GifPath(c, t)) == c.outDir + "/" + c.name + "/" + t.typeName + "/case" + CaseString(t.caseId)
  {
    OutRootPlain(c);
    CaseDirPlain(OutRoot(c), t);
    NoSlashConcat(t.variable, ".gif");
    DirnameOfJoin(CaseDir(OutRoot(c), t), t.variable + ".gif");
  }

  lemma OutRootPlain(c: Config)
    requires PlainDir(c.outDir) && PlainName(c.name)
    ensures OutRoot(c) == c.outDir + "/" + c.name
    ensures PlainDir(OutRoot(c))
  {
    JoinPlain(c.outDir, c.name);
    var out := OutRoot(c);
    assert out[|out| - 1] == c.name[|c.name| - 1];
  }

  /** A file named after the target's variable, inside its case directory under `root`. */
  lemma FileInCase(root: string, t: Target, suffix: string)
    requires PlainDir(root) && PlainName(t.typeName) && PlainName(t.variable)
    ensures Join(CaseDir(root, t), t.variable + suffix)
      == root + "/" + t.typeName + "/case" + CaseString(t.caseId) + "/" + t.variable + suffix
  {
    CaseDirPlain(root, t);
    var cd := CaseDir(root, t);
    JoinPlain(cd, t.variable + suffix);
    assert cd + "/" + (t.variable + suffix) == cd + "/" + t.variable + suffix;
  }

  lemma CaseDirPlain(root: string, t: Target)
    requires PlainDir(root) && PlainName(t.typeName)
    ensures CaseDir(root, t) == root + "/" + t.typeName + "/case" + CaseString(t.caseId)
    ensures PlainDir(CaseDir(root, t))
  {
    JoinPlain(root, t.typeName);
    var typeDir := Join(root, t.typeName);
    assert typeDir[|typeDir| - 1] == t.typeName[|t.typeName| - 1];
    var leaf := "case" + CaseString(t.caseId);
    JoinPlain(typeDir, leaf);
    var d := typeDir + "/" + leaf;
    var s := CaseString(t.caseId);
    assert d[|d| - 1] == s[|s| - 1];
  }

  // ---------------------------------------------------------------------------
  // Enumeration order

  lemma MulSucc(a: nat, v: nat)
    ensures (a + 1) * v == v + a * v
    ensures a * v >= 0
  {
  }

  /** Each case of `[lo, hi)` contributes one target per variable. */
  lemma {:induction false} CaseTargetsLength(typeName: string, lo: int, hi: int, vars: seq<string>)
    ensures |CaseTargets(typeName, lo, hi, vars)| == Span(lo, hi) * |vars|
    decreases hi - lo
  {
    if lo < hi {
      CaseTargetsLength(typeName, lo + 1, hi, vars);
      MulSucc(Span(lo + 1, hi), |vars|);
      assert Span(lo, hi) == Span(lo + 1, hi) + 1;
    }
  }

  /**
   Within one type, the target for case `c` and the `i`-th variable sits at
   position `(c - lo) * |vars| + i`: cases in ascending order over `[lo, hi)`,
   variables in list order within each case.
   */
  lemma {:induction false} CaseTargetsAt(typeName: string, lo: int, hi: int, vars: seq<string>, c: int, i: int)
    requires lo <= c < hi && 0 <= i < |vars|
    ensures Position(c - lo, |vars|, i) < |CaseTargets(typeName, lo, hi, vars)|
    ensures CaseTargets(typeName, lo, hi, vars)[Position(c - lo, |vars|, i)] == Target(typeName, c, vars[i])
    decreases hi - lo
  {
    var v := |vars|;
    var r := CaseTargets(typeName, lo, hi, vars);
    var head := VarTargets(typeName, lo, vars);
    var rest := CaseTargets(typeName, lo + 1, hi, vars);
    assert r == head + rest;
    CaseTargetsLength(typeName, lo + 1, hi, vars);
    MulSucc(Span(lo + 1, hi), v);
    if c == lo {
      assert (c - lo) * v + i == i;
      assert r[i] == head[i];
    } else {
      var a := c - lo - 1;
      CaseTargetsAt(typeName, lo + 1, hi, vars, c, i);
      MulSucc(a, v);
      assert (c - lo) * v + i == v + (a * v + i);
      assert r[v + (a * v + i)] == rest[a * v + i];
    }
  }

  /**
   The full enumeration is types in list order (as far as the shortest of the
   three lists reaches), then cases, then variables: the target of the `k`-th
   type, case `c` and `i`-th variable sits after all targets of earlier types,
   at position `(c - start_k) * |vars| + i` within its type's block; and there
   are exactly as many targets as these positions.
   */
  lemma TargetsAt(types: seq<string>, starts: seq<int>, ends: seq<int>, vars: seq<string>,
                  k: nat, c: int, i: int)
    requires k < ZipLength(types, starts, ends)
    requires starts[k] <= c < ends[k] && 0 <= i < |vars|
    ensures |Targets(types, starts, ends, vars)| == BlockOffset(starts, ends, |vars|, ZipLength(types, starts, ends))
    ensures var p := BlockOffset(starts, ends, |vars|, k) + Position(c - starts[k], |vars|, i);
      p < |Targets(types, starts, ends, vars)| && Targets(types, starts, ends, vars)[p] == Target(types[k], c, vars[i])
  {
    TargetsLength(types, starts, ends, vars);
    TargetAtPosition(types, starts, ends, vars, k, c, i);
  }

  lemma {:induction false} TargetAtPosition(types: seq<string>, starts: seq<int>, ends: seq<int>, vars: seq<string>,
                                            k: nat, c: int, i: int)
    requires k < ZipLength(types, starts, ends)
    requires starts[k] <= c < ends[k] && 0 <= i < |vars|
    ensures var p := BlockOffset(starts, ends, |vars|, k) + Position(c - starts[k], |vars|, i);
      p < |Targets(types, starts, ends, vars)| && Targets(types, starts, ends, vars)[p] == Target(types[k], c, vars[i])
    decreases |types|
  {
    if k == 0 {
      FirstBlockAt(types, starts, ends, vars, c, i);
    } else {
      var v := |vars|;
      var block := CaseTargets(types[0], starts[0], ends[0], vars);
      var rest := Targets(types[1..], starts[1..], ends[1..], vars);
      TargetsUnfold(types, starts, ends, vars);
      CaseTargetsLength(types[0], starts[0], ends[0], vars);
      ZipTail(types, starts, ends, k);
      TargetAtPosition(types[1..], starts[1..], ends[1..], vars, k - 1, c, i);
      var q := BlockOffset(starts[1..], ends[1..], v, k - 1) + Position(c - starts[k], v, i);
      BlockOffsetStep(starts, ends, v, k);
      ShiftPastBlock(block, rest, q, Target(types[k], c, vars[i]));
    }
  }

  /**
   Every enumerated target is drawn from the arguments: its type is one of the
   entries `zip` reaches, its case lies in that entry's range, and its variable
   is one of `vars`.
   */
  lemma {:induction false} TargetsSound(types: seq<string>, starts: seq<int>, ends: seq<int>, vars: seq<string>)
    ensures var r := Targets(types, starts, ends, vars);
      forall k :: 0 <= k < |r| ==> r[k].variable in vars && FromZippedType(r[k], types, starts, ends)
    decreases |types|
  {
    if |types| > 0 && |starts| > 0 && |ends| > 0 {
      var block := CaseTargets(types[0], starts[0], ends[0], vars);
      var rest := Targets(types[1..], starts[1..], ends[1..], vars);
      var all := Targets(types, starts, ends, vars);
      TargetsUnfold(types, starts, ends, vars);
      TargetsSound(types[1..], starts[1..], ends[1..], vars);
      CaseTargetsVars(types[0], starts[0], ends[0], vars);
      forall k | 0 <= k < |all|
        ensures all[k].variable in vars && FromZippedType(all[k], types, starts, ends)
      {
        if k < |block| {
          assert all[k] == block[k];
          assert all[k].typeName == types[0] && starts[0] <= all[k].caseId < ends[0];
        } else {
          var t := rest[k - |block|];
          assert all[k] == t;
          var j :| 0 <= j < ZipLength(types[1..], starts[1..], ends[1..])
            && t.typeName == types[1..][j] && starts[1..][j] <= t.caseId < ends[1..][j];
          assert types[1..][j] == types[j + 1] && starts[1..][j] == starts[j + 1] && ends[1..][j] == ends[j + 1];
        }
      }
    }
  }

  lemma {:induction false} CaseTargetsVars(typeName: string, lo: int, hi: int, vars: seq<string>)
    ensures forall k :: 0 <= k < |CaseTargets(typeName, lo, hi, vars)| ==> CaseTargets(typeName, lo, hi, vars)[k].variable in vars
    decreases hi - lo
  {
    if lo < hi {
      var block := VarTargets(typeName, lo, vars);
      var rest := CaseTargets(typeName, lo + 1, hi, vars);
      CaseTargetsVars(typeName, lo + 1, hi, vars);
      var all: seq<Target> := block + rest;
      assert CaseTargets(typeName, lo, hi, vars) == all;
      forall k | 0 <= k < |all|
        ensures all[k].variable in vars
      {
        if k < |block| { assert all[k] == block[k]; } else { assert all[k] == rest[k - |block|]; }
      }
    }
  }

  /** The first type's block of targets, followed by the targets of the remaining zipped entries. */
  lemma TargetsUnfold(types: seq<string>, starts: seq<int>, ends: seq<int>, vars: seq<string>)
    requires |types| > 0 && |starts| > 0 && |ends| > 0
    ensures Targets(types, starts, ends, vars)
      == CaseTargets(types[0], starts[0], ends[0], vars) + Targets(types[1..], starts[1..], ends[1..], vars)
  {
  }

  lemma FirstBlockAt(types: seq<string>, starts: seq<int>, ends: seq<int>, vars: seq<string>, c: int, i: int)
    requires 0 < ZipLength(types, starts, ends)
    requires starts[0] <= c < ends[0] && 0 <= i < |vars|
    ensures var p := Position(c - starts[0], |vars|, i);
      p < |Targets(types, starts, ends, vars)| && Targets(types, starts, ends, vars)[p] == Target(types[0], c, vars[i])
  {
    var block := CaseTargets(types[0], starts[0], ends[0], vars);
    var rest := Targets(types[1..], starts[1..], ends[1..], vars);
    TargetsUnfold(types, starts, ends, vars);
    CaseTargetsAt(types[0], starts[0], ends[0], vars, c, i);
    ConcatAt(block, rest, Position(c - starts[0], |vars|, i));
  }

  /** Entry `k > 0` of the zipped lists is entry `k - 1` of their tails. */
  lemma ZipTail(types: seq<string>, starts: seq<int>, ends: seq<int>, k: nat)
    requires 0 < k < ZipLength(types, starts, ends)
    ensures k - 1 < ZipLength(types[1..], starts[1..], ends[1..])
    ensures types[1..][k - 1] == types[k] && starts[1..][k - 1] == starts[k] && ends[1..][k - 1] == ends[k]
  {
  }

  lemma BlockOffsetStep(starts: seq<int>, ends: seq<int>, width: nat, k: nat)
    requires 0 < k <= |starts| && k <= |ends|
    ensures BlockOffset(starts, ends, width, k) == Span(starts[0], ends[0]) * width + BlockOffset(starts[1..], ends[1..], width, k - 1)
  {
  }

  lemma ShiftPastBlock(block: seq<Target>, rest: seq<Target>, q: nat, x: Target)
    requires q < |rest| && rest[q] == x
    ensures |block| + q < |block + rest| && (block + rest)[|block| + q] == x
  {
  }

  lemma ConcatAt<T>(a: seq<T>, b: seq<T>, p: nat)
    requires p < |a| + |b|
    ensures p < |a| ==> (a + b)[p] == a[p]
    ensures |a| <= p ==> (a + b)[p] == b[p - |a|]
  {
  }

  lemma {:induction false} TargetsLength(types: seq<string>, starts: seq<int>, ends: seq<int>, vars: seq<string>)
    ensures |Targets(types, starts, ends, vars)| == BlockOffset(starts, ends, |vars|, ZipLength(types, starts, ends))
    decreases |types|
  {
    if |types| > 0 && |starts| > 0 && |ends| > 0 {
      CaseTargetsLength(types[0], starts[0], ends[0], vars);
      TargetsLength(types[1..], starts[1..], ends[1..], vars);
      assert ZipLength(types, starts, ends) == ZipLength(types[1..], starts[1..], ends[1..]) + 1;
    }
  }

  // ---------------------------------------------------------------------------
  // Skip-if-exists

  predicate StillApartFromAnimation(files: seq<TargetFiles>)
  {
    forall k :: 0 <= k < |files| ==> files[k].img != files[k].gif
  }

  lemma {:induction false} LoopJobOutputs(files: seq<TargetFiles>, present: set<string>)
    requires StillApartFromAnimation(files)
    ensures JobOutputs(Loop(files, present).jobs) == Outputs(files) - present
    decreases |files|
  {
    var r := Loop(files, present);
    if |files| == 0 {
      assert JobOutputs(r.jobs) == {};
    } else {
      var first := Step(files[0], present);
      var rest := Loop(files[1..], first.present);
      StepRendersMissing(files[0], present);
      LoopJobOutputs(files[1..], first.present);
      assert r.jobs == first.jobs + rest.jobs;
      JobOutputsConcat(first.jobs, rest.jobs);
    }
  }

  predicate OutputsDistinct(jobs: seq<Job>)
  {
    forall j, k :: 0 <= j < k < |jobs| ==> Output(jobs[j]) != Output(jobs[k])
  }

  lemma DistinctConcat(a: seq<Job>, b: seq<Job>)
    requires OutputsDistinct(a) && OutputsDistinct(b)
    requires JobOutputs(a) !! JobOutputs(b)
    ensures OutputsDistinct(a + b)
  {
    var ab := a + b;
    forall j, k | 0 <= j < k < |ab|
      ensures Output(ab[j]) != Output(ab[k])
    {
      if k >= |a| {
        assert ab[k] == b[k - |a|];
        assert Output(ab[k]) in JobOutputs(b);
        if j < |a| {
          assert ab[j] == a[j];
          assert Output(ab[j]) in JobOutputs(a);
        } else {
          assert ab[j] == b[j - |a|];
        }
      } else {
        assert ab[j] == a[j] && ab[k] == a[k];
      }
    }
  }

  lemma {:induction false} LoopJobsDistinct(files: seq<TargetFiles>, present: set<string>)
    requires StillApartFromAnimation(files)
    ensures OutputsDistinct(Loop(files, present).jobs)
    decreases |files|
  {
    if |files| > 0 {
      var first := Step(files[0], present);
      var rest := Loop(files[1..], first.present);
      StepRendersMissing(files[0], present);
      LoopJobsDistinct(files[1..], first.present);
      LoopJobOutputs(files[1..], first.present);
      DistinctConcat(first.jobs, rest.jobs);
    }
  }

  /** `j` is the still or animation job of one of the targets with files `files`. */
  predicate JobOfSome(j: Job, files: seq<TargetFiles>)
  {
    exists i :: 0 <= i < |files| && JobOf(j, files[i])
  }

  predicate AllJobsOfSome(jobs: seq<Job>, files: seq<TargetFiles>)
  {
    forall k :: 0 <= k < |jobs| ==> JobOfSome(jobs[k], files)
  }

  lemma {:induction false} LoopJobsFromFiles(files: seq<TargetFiles>, present: set<string>)
    ensures AllJobsOfSome(Loop(files, present).jobs, files)
    decreases |files|
  {
    if |files| > 0 {
      var r := Loop(files, present);
      var first := Step(files[0], present);
      var rest := Loop(files[1..], first.present);
      LoopJobsFromFiles(files[1..], first.present);
      assert AllJobsOfSome(rest.jobs, files[1..]);
      assert r.jobs == first.jobs + rest.jobs;
      var n := |first.jobs|;
      forall k | 0 <= k < |r.jobs|
        ensures JobOfSome(r.jobs[k], files)
      {
        if k < n {
          assert JobOf(r.jobs[k], files[0]);
        } else {
          assert r.jobs[k] == rest.jobs[k - n];
          assert JobOfSome(rest.jobs[k - n], files[1..]);
          var i :| 0 <= i < |files[1..]| && JobOf(rest.jobs[k - n], files[1..][i]);
          assert JobOf(r.jobs[k], files[i + 1]);
        }
      }
    }
  }

  /**
   The loop renders exactly the outputs that did not exist at the start, each
   once, and only as the still or animation job of one of the targets; when it
   ends, every output of every target exists.
   */
  lemma LoopRendersExactlyMissing(files: seq<TargetFiles>, present: set<string>)
    requires StillApartFromAnimation(files)
    ensures var r := Loop(files, present);
      && r.present == present + Outputs(files)
      && JobOutputs(r.jobs) == Outputs(files) - present
      && OutputsDistinct(r.jobs)
      && AllJobsOfSome(r.jobs, files)
  {
    LoopJobOutputs(files, present);
    LoopJobsDistinct(files, present);
    LoopJobsFromFiles(files, present);
  }

  lemma StepRendersMissing(f: TargetFiles, present: set<string>)
    requires f.img != f.gif
    ensures var s := Step(f, present);
      && s.present == present + {f.img, f.gif}
      && JobOutputs(s.jobs) == {f.img, f.gif} - present
      && OutputsDistinct(s.jobs)
      && (forall k :: 0 <= k < |s.jobs| ==> JobOf(s.jobs[k], f))
  {
    var s := Step(f, present);
    var still, anim := RenderStill(f.npy, f.img), RenderGif(f.npy, f.gif);
    JobOutputsSingle(still);
    JobOutputsSingle(anim);
    if f.img !in present && f.gif !in present {
      assert s.jobs == [still] + [anim];
      JobOutputsConcat([still], [anim]);
    } else if f.img !in present {
      assert s.jobs == [still];
    } else if f.gif !in present {
      assert s.jobs == [anim];
    } else {
      assert s.jobs == [];
      assert JobOutputs(s.jobs) == {};
    }
  }

  lemma JobOutputsSingle(j: Job)
    ensures JobOutputs([j]) == {Output(j)}
  {
    assert Output([j][0]) in JobOutputs([j]);
  }

  lemma JobOutputsConcat(a: seq<Job>, b: seq<Job>)
    ensures JobOutputs(a + b) == JobOutputs(a) + JobOutputs(b)
  {
    var ab := a + b;
    forall p | p in JobOutputs(ab)
      ensures p in JobOutputs(a) + JobOutputs(b)
    {
      var k :| 0 <= k < |ab| && Output(ab[k]) == p;
      if k >= |a| {
        assert ab[k] == b[k - |a|];
      }
    }
    forall p | p in JobOutputs(a) + JobOutputs(b)
      ensures p in JobOutputs(ab)
    {
      if p in JobOutputs(a) {
        var k :| 0 <= k < |a| && Output(a[k]) == p;
        assert ab[k] == a[k];
      } else {
        var k :| 0 <= k < |b| && Output(b[k]) == p;
        assert ab[|a| + k] == b[k];
      }
    }
  }

  /** When every output already exists the loop dispatches no job and the file system is unchanged. */
  lemma {:induction false} NothingToDoWhenComplete(files: seq<TargetFiles>, present: set<string>)
    requires Outputs(files) <= present
    ensures Loop(files, present) == Plan([], present)
    decreases |files|
  {
    if |files| > 0 {
      var first := Step(files[0], present);
      assert first == Plan([], present);
      NothingToDoWhenComplete(files[1..], present);
    }
  }

  /** No target's still image shares its path with its animation. */
  lemma TargetFilesApart(c: Config, targets: seq<Target>)
    ensures StillApartFromAnimation(FilesOfAll(c, targets))
  {
    var files := FilesOfAll(c, targets);
    forall k | 0 <= k < |files|
      ensures files[k].img != files[k].gif
    {
      StillNeverAnimation(c, targets[k], targets[k]);
    }
  }

  /**
   A run with valid arguments and named directories dispatches each missing
   output of the enumerated targets exactly once, and nothing whose path exists
   when the loop starts, counting the directories the run itself created.
   */
  lemma RunRendersExactlyMissing(c: Config, existing: set<string>)
    requires ArgumentsValid(c) && DirectoriesNamed(c)
    ensures var files := FilesOfAll(c, Targets(c.types, c.casesStart, c.casesEnd, c.vars));
      var r := Run(c, existing);
      && r.error.None?
      && JobOutputs(r.jobs) == Outputs(files) - StartPresent(c, existing)
      && OutputsDistinct(r.jobs)
  {
    var files := FilesOfAll(c, Targets(c.types, c.casesStart, c.casesEnd, c.vars));
    TargetFilesApart(c, Targets(c.types, c.casesStart, c.casesEnd, c.vars));
    LoopRendersExactlyMissing(files, StartPresent(c, existing));
  }

  /**
   Re-running the driver with the same arguments after a run whose jobs all
   completed dispatches nothing and creates the same two directories.
   */
  lemma RerunIsNoop(c: Config, existing: set<string>)
    requires ArgumentsValid(c) && DirectoriesNamed(c)
    ensures var first := Run(c, existing);
      var second := Run(c, existing + JobOutputs(first.jobs));
      && second.error.None?
      && second.jobs == []
      && second.created == first.created
  {
    var files := FilesOfAll(c, Targets(c.types, c.casesStart, c.casesEnd, c.vars));
    var first := Run(c, existing);
    var start := StartPresent(c, existing);
    TargetFilesApart(c, Targets(c.types, c.casesStart, c.casesEnd, c.vars));
    LoopRendersExactlyMissing(files, start);
    StartPresentAdds(c, existing, JobOutputs(first.jobs));
    NothingToDoWhenComplete(files, start + JobOutputs(first.jobs));
  }

  /**
   When the first target's still image is missing at the start of the loop, a
   run with valid arguments and named directories dispatches it before anything
   else.
   */
  lemma RunStartsWithStill(c: Config, existing: set<string>)
    requires ArgumentsValid(c) && DirectoriesNamed(c)
    requires |Targets(c.types, c.casesStart, c.casesEnd, c.vars)| > 0
    requires ImgPath(c, Targets(c.types, c.casesStart, c.casesEnd, c.vars)[0]) !in StartPresent(c, existing)
    ensures var t := Targets(c.types, c.casesStart, c.casesEnd, c.vars)[0];
      var r := Run(c, existing);
      && r.error.None?
      && |r.jobs| > 0 && r.jobs[0] == RenderStill(NpyPath(c, t), ImgPath(c, t))
  {
    var targets := Targets(c.types, c.casesStart, c.casesEnd, c.vars);
    var files := FilesOfAll(c, targets);
    assert files[0] == FilesOf(c, targets[0]);
    FirstJobIsStill(files, StartPresent(c, existing));
  }

  /** Paths added before a run are present when its loop starts, beside those the run creates. */
  lemma StartPresentAdds(c: Config, existing: set<string>, extra: set<string>)
    ensures StartPresent(c, existing + extra) == StartPresent(c, existing) + extra
  {
  }

  /** Invalid arguments stop the run before any directory is created or any job dispatched. */
  lemma InvalidArgumentsDoNothing(c: Config, existing: set<string>)
    requires !(0 <= c.axis <= 2) || c.duration <= 0.0 || |c.types| != |c.casesStart| || |c.casesStart| != |c.casesEnd|
    ensures Run(c, existing) == DriverRun([], [], Validate(c))
    ensures Validate(c).Some?
  {
  }

  /** When the first target's still image is absent, the loop's first job renders it. */
  lemma FirstJobIsStill(files: seq<TargetFiles>, present: set<string>)
    requires |files| > 0 && files[0].img !in present
    ensures |Loop(files, present).jobs| > 0
    ensures Loop(files, present).jobs[0] == RenderStill(files[0].npy, files[0].img)
  {
    var first := Step(files[0], present);
    assert first.jobs[0] == RenderStill(files[0].npy, files[0].img);
  }
}

=== FILE: paths.dfy ===
/**
 The POSIX path operations the script relies on: `os.path.join`,
 `os.path.dirname` and `os.path.basename`, the "at or beneath" relation
 between a path and a directory, and the directories `os.makedirs` leaves
 existing.
 */
module Paths {

  predicate IsAbsolute(p: string)
  {
    |p| > 0 && p[0] == '/'
  }

  predicate EndsWithSlash(p: string)
  {
    |p| > 0 && p[|p| - 1] == '/'
  }

  predicate HasSlash(p: string)
  {
    exists i :: 0 <= i < |p| && p[i] == '/'
  }

  /**
   Two-argument `os.path.join` on POSIX: an absolute second part replaces the
   first; otherwise a separator is inserted unless the first part is empty or
   already ends with one.
   */
  function Join(a: string, b: string): (r: string)
    ensures |r| >= |b| && r[|r| - |b|..] == b
    ensures !IsAbsolute(b) ==> |r| >= |a| && r[..|a|] == a
  {
    if IsAbsolute(b) then b
    else if |a| == 0 || EndsWithSlash(a) then a + b
    else a + "/" + b
  }

  /** Index just past the last '/', or 0 when there is none (`p.rfind('/') + 1`). */
  function AfterLastSlash(p: string): (i: nat)
    ensures i <= |p|
    ensures i > 0 ==> p[i - 1] == '/'
    ensures forall j :: i <= j < |p| ==> p[j] != '/'
    decreases |p|
  {
    if |p| == 0 then 0
    else if p[|p| - 1] == '/' then |p|
    else AfterLastSlash(p[..|p| - 1])
  }

  predicate AllSlashes(p: string)
  {
    forall i :: 0 <= i < |p| ==> p[i] == '/'
  }

  function StripTrailingSlashes(p: string): (r: string)
    ensures |r| <= |p| && r == p[..|r|]
    ensures !EndsWithSlash(r)
    decreases |p|
  {
    if EndsWithSlash(p) then StripTrailingSlashes(p[..|p| - 1]) else p
  }

  /**
   `os.path.dirname` on POSIX: everything before the last '/', with trailing
   separators removed unless the head consists of separators only.
   */
  function Dirname(p: string): (r: string)
    ensures |r| <= |p| && r == p[..|r|]
    ensures !HasSlash(p) ==> r == ""
  {
    var head := p[..AfterLastSlash(p)];
    if |head| > 0 && !AllSlashes(head) then StripTrailingSlashes(head) else head
  }

  /** A non-empty path component with no separator in it. */
  predicate PlainName(p: string)
  {
    |p| > 0 && !HasSlash(p)
  }

  /** A non-empty directory path that does not end in a separator. */
  predicate PlainDir(p: string)
  {
    |p| > 0 && !EndsWithSlash(p)
  }

  /**
   `p` is the directory `d` itself or lies beneath it, so that `os.makedirs(p)`
   leaves `d` existing: it creates every missing parent as well.
   */
  predicate WithinDir(p: string, d: string)
  {
    p == d || (|p| > |d| && p[..|d| + 1] == d + "/")
  }

  lemma WithinDirTransitive(a: string, b: string, c: string)
    requires WithinDir(a, b) && WithinDir(b, c)
    ensures WithinDir(a, c)
  {
    if a != b && b != c {
      assert a[..|c| + 1] == a[..|b| + 1][..|c| + 1];
    }
  }

  /**
   The paths that exist once `os.makedirs(d)` has returned: `d` itself and
   every parent directory named by a prefix of `d` that ends before a '/'.
   */
  function DirAndParents(d: string): (r: set<string>)
    ensures forall p :: p in r <==> |p| > 0 && WithinDir(d, p)
  {
    var r := set i | 0 < i <= |d| && (i == |d| || d[i] == '/') :: d[..i];
    DirAndParentsWithin(d, r);
    DirAndParentsComplete(d, r);
    r
  }

  lemma DirAndParentsWithin(d: string, r: set<string>)
    requires r == set i | 0 < i <= |d| && (i == |d| || d[i] == '/') :: d[..i]
    ensures forall p :: p in r ==> |p| > 0 && WithinDir(d, p)
  {
    forall p | p in r
      ensures |p| > 0 && WithinDir(d, p)
    {
      var i :| 0 < i <= |d| && (i == |d| || d[i] == '/') && p == d[..i];
      if i < |d| {
        assert d[..i + 1] == d[..i] + [d[i]];
      }
    }
  }

  lemma DirAndParentsComplete(d: string, r: set<string>)
    requires r == set i | 0 < i <= |d| && (i == |d| || d[i] == '/') :: d[..i]
    ensures forall p :: |p| > 0 && WithinDir(d, p) ==> p in r
  {
    forall p | |p| > 0 && WithinDir(d, p)
      ensures p in r
    {
      if p == d {
        assert d[..|d|] == p;
      } else {
        assert d[..|p| + 1] == p + "/";
        assert d[|p|] == '/' && d[..|p|] == p;
      }
    }
  }

  /** `os.path.basename`: everything after the last '/'. */
  function Basename(p: string): (r: string)
    ensures |r| <= |p| && r == p[|p| - |r|..]
    ensures !HasSlash(r)
  {
    p[AfterLastSlash(p)..]
  }

  /** After a directory part that is empty or ends in '/', a separator-free name is the basename. */
  lemma {:induction false} BasenameAfterSlash(pre: string, name: string)
    requires |pre| == 0 || EndsWithSlash(pre)
    requires !HasSlash(name)
    ensures AfterLastSlash(pre + name) == |pre|
    ensures Basename(pre + name) == name
    decreases |name|
  {
    var s := pre + name;
    if |name| == 0 {
      assert s == pre;
    } else {
      assert s[|s| - 1] == name[|name| - 1];
      assert s[..|s| - 1] == pre + name[..|name| - 1];
      BasenameAfterSlash(pre, name[..|name| - 1]);
    }
  }

  /** The basename of a join onto a separator-free name is that name. */
  lemma BasenameOfJoin(dir: string, name: string)
    requires |name| > 0 && !HasSlash(name)
    ensures Basename(Join(dir, name)) == name
  {
    assert !IsAbsolute(name);
    if |dir| == 0 || EndsWithSlash(dir) {
      BasenameAfterSlash(dir, name);
    } else {
      assert Join(dir, name) == (dir + "/") + name;
      BasenameAfterSlash(dir + "/", name);
    }
  }

  /** Joining onto a plain directory inserts exactly one separator. */
  lemma JoinPlain(a: string, b: string)
    requires PlainDir(a) && !IsAbsolute(b)
    ensures Join(a, b) == a + "/" + b
  {
  }

  /** A join ends with the last character of its (non-empty) second part. */
  lemma JoinKeepsLast(a: string, b: string)
    requires |b| > 0
    ensures |Join(a, b)| > 0 && Join(a, b)[|Join(a, b)| - 1] == b[|b| - 1]
  {
    var r := Join(a, b);
    assert r[|r| - |b|..] == b;
    assert r[|r| - 1] == r[|r| - |b|..][|b| - 1];
  }

  lemma NoSlashConcat(a: string, b: string)
    requires !HasSlash(a) && !HasSlash(b)
    ensures !HasSlash(a + b)
  {
    var s := a + b;
    forall i | 0 <= i < |s|
      ensures s[i] != '/'
    {
      if i < |a| { assert s[i] == a[i]; } else { assert s[i] == b[i - |a|]; }
    }
  }

  /** Joining a directory with a plain file name and taking `dirname` gives the directory back. */
  lemma DirnameOfJoin(dir: string, name: string)
    requires |dir| > 0 && !EndsWithSlash(dir)
    requires !HasSlash(name)
    ensures Dirname(Join(dir, name)) == dir
  {
    var p := Join(dir, name);
    assert p == dir + "/" + name;
    assert p[|dir|] == '/';
    var i := AfterLastSlash(p);
    assert forall j :: |dir| < j < |p| ==> p[j] == name[j - |dir| - 1];
    assert i == |dir| + 1;
    var head := p[..i];
    assert head == dir + "/";
    assert !AllSlashes(head) by {
      assert head[|dir| - 1] != '/';
    }
    assert StripTrailingSlashes(head) == StripTrailingSlashes(dir);
  }

  /** Joining onto the same directory is injective in the relative part. */
  lemma JoinInjective(dir: string, x: string, y: string)
    requires !IsAbsolute(x) && !IsAbsolute(y)
    requires Join(dir, x) == Join(dir, y)
    ensures x == y
  {
    var r := Join(dir, x);
    assert r[|r| - |x|..] == x;
    assert r[|r| - |y|..] == y;
  }
}

=== FILE: pipeline.dfy ===
/**
 The driver and the renderers together: what the first job of a run on a
 fresh output tree does.
 */
module Pipeline {
  import opened Common
  import opened Paths
  import opened Driver
  import Render

  /**
   On an output tree where nothing exists at or beneath the first target's
   case directory, and with a log directory outside it, the run's first job is
   that target's still image, and the renderer as written fails on it: the run
   creates only the output root and the log directory (with their parents), and
   nothing creates the case directory before the still is saved.
   */
  lemma FirstStillFailsOnFreshTree(c: Config, existing: set<string>, vol: Render.Volume)
    requires ArgumentsValid(c) && DirectoriesNamed(c) && |vol.values| > 0
    requires PlainDir(c.dir) && PlainDir(c.outDir) && PlainName(c.name)
    requires |Targets(c.types, c.casesStart, c.casesEnd, c.vars)| > 0
    requires var t := Targets(c.types, c.casesStart, c.casesEnd, c.vars)[0];
      && PlainName(t.typeName) && PlainName(t.variable)
      && (forall p :: p in existing ==> !WithinDir(p, CaseDir(OutRoot(c), t)))
      && !WithinDir(c.logDir, CaseDir(OutRoot(c), t))
    ensures var t := Targets(c.types, c.casesStart, c.casesEnd, c.vars)[0];
      var r := Run(c, existing);
      && r.error.None?
      && |r.jobs| > 0 && r.jobs[0] == RenderStill(NpyPath(c, t), ImgPath(c, t))
      && Render.PlotFirstFrame(vol, ImgPath(c, t), c.axis, StartPresent(c, existing)).error
           == Some(MissingDirectory)
  {
    CaseDirMissing(c, Targets(c.types, c.casesStart, c.casesEnd, c.vars)[0], existing);
    RunStartsWithStill(c, existing);
  }

  /**
   The still image's directory is the case directory, which the run itself
   does not create: neither the output root, which lies above it, nor a log
   directory outside it, nor any path already there makes it exist, and the
   still image itself is absent.
   */
  lemma CaseDirMissing(c: Config, t: Target, existing: set<string>)
    requires PlainDir(c.dir) && PlainDir(c.outDir) && PlainName(c.name)
    requires PlainName(t.typeName) && PlainName(t.variable)
    requires forall p :: p in existing ==> !WithinDir(p, CaseDir(OutRoot(c), t))
    requires !WithinDir(c.logDir, CaseDir(OutRoot(c), t))
    ensures Dirname(ImgPath(c, t)) == CaseDir(OutRoot(c), t)
    ensures ImgPath(c, t) !in StartPresent(c, existing)
    ensures !Render.DirectoryExists(ImgPath(c, t), StartPresent(c, existing))
  {
    ImgDirIsCaseDir(c, t);
    ImgWithinCaseDir(c, t);
    NothingStartsWithinCaseDir(c, t, existing);
    Render.DirectoryAbsent(ImgPath(c, t), StartPresent(c, existing));
  }

  /**
   No path present when the loop starts lies at or beneath the case
   directory: the output root and its parents are shorter than it, and a
   parent of the log directory inside it would put the log directory inside it.
   */
  lemma NothingStartsWithinCaseDir(c: Config, t: Target, existing: set<string>)
    requires PlainDir(c.outDir) && PlainName(c.name)
    requires PlainName(t.typeName) && PlainName(t.variable)
    requires forall p :: p in existing ==> !WithinDir(p, CaseDir(OutRoot(c), t))
    requires !WithinDir(c.logDir, CaseDir(OutRoot(c), t))
    ensures forall p :: p in StartPresent(c, existing) ==> !WithinDir(p, CaseDir(OutRoot(c), t))
  {
    var out := OutRoot(c);
    var cd := CaseDir(out, t);
    ImgDirIsCaseDir(c, t);
    forall p | p in StartPresent(c, existing)
      ensures !WithinDir(p, cd)
    {
      if p !in existing && WithinDir(p, cd) {
        if WithinDir(out, p) {
          WithinDirTransitive(out, p, cd);
        } else {
          WithinDirTransitive(c.logDir, p, cd);
        }
      }
    }
  }

  lemma ImgDirIsCaseDir(c: Config, t: Target)
    requires PlainDir(c.outDir) && PlainName(c.name)
    requires PlainName(t.typeName) && PlainName(t.variable)
    ensures Dirname(ImgPath(c, t)) == CaseDir(OutRoot(c), t)
    ensures PlainDir(CaseDir(OutRoot(c), t)) && |CaseDir(OutRoot(c), t)| > |OutRoot(c)|
  {
    var out := OutRoot(c);
    var cd := CaseDir(out, t);
    OutRootPlain(c);
    CaseDirPlain(out, t);
    NoSlashConcat(t.variable, "_ic.png");
    DirnameOfJoin(cd, t.variable + "_ic.png");
  }

  /** The still image itself lies within its case directory, so it is absent from a tree with nothing there. */
  lemma ImgWithinCaseDir(c: Config, t: Target)
    requires PlainDir(c.outDir) && PlainName(c.name) && PlainName(t.typeName) && PlainName(t.variable)
    ensures WithinDir(ImgPath(c, t), CaseDir(OutRoot(c), t))
  {
    var cd := CaseDir(OutRoot(c), t);
    OutRootPlain(c);
    CaseDirPlain(OutRoot(c), t);
    assert (t.variable + "_ic.png")[0] == t.variable[0];
    JoinPlain(cd, t.variable + "_ic.png");
    assert ImgPath(c, t)[..|cd| + 1] == cd + "/";
  }
}

=== FILE: render.dfy ===
/**
 The two renderers, `plot_first_frame_from_npy` and `create_gif_from_npy`, as
 traces of the file-system and plotting effects they perform, in order, ending
 in the error they raise, if any. Drawing, colour maps and GIF encoding are
 opaque effects; only which file gets which slice, caption and colour scale
 is modelled.
 */
module Render {
  import opened Common
  import opened Decimal
  import opened Paths
  import opened Sampler
  import opened ColourScale

  /** A loaded 3-D array: its shape and its entries in row-major order. */
  datatype Volume = Volume(d0: nat, d1: nat, d2: nat, values: seq<real>)

  /** `data.shape[axis]`. */
  function NumSlices(v: Volume, axis: int): nat
    requires ValidAxis(axis)
  {
    if axis == 0 then v.d0 else if axis == 1 then v.d1 else v.d2
  }

  datatype Effect =
    | MakeDirs(dir: string)
    | SaveFigure(path: string, title: string, axis: int, slice: nat, norm: Norm)
    | WriteGif(path: string, frames: seq<string>, duration: real)
    | Move(src: string, dst: string)
    | Remove(path: string)
    | RemoveDir(dir: string)

  /** The effects a call performed, in order, and the error it ended with. */
  datatype Trace = Trace(effects: seq<Effect>, error: Option<Error>)

  /** True when effect `e` creates or overwrites the file at `p`. */
  predicate Writes(e: Effect, p: string)
  {
    match e
    case SaveFigure(path, _, _, _, _) => path == p
    case WriteGif(path, _, _) => path == p
    case Move(_, dst) => dst == p
    case _ => false
  }

  const InitialTitle: string := "Initial Condition"
  const StepPrefix: string := "Time Step "

  /** Caption of the animation frame for 0-based slice `idx`: "Time Step " and the 1-based number `idx + 1`. */
  function FrameTitle(idx: nat): (r: string)
    ensures |r| > |StepPrefix| && r[..|StepPrefix|] == StepPrefix
    ensures ParseInt(r[|StepPrefix|..]) == Some(idx + 1)
  {
    var t := StepPrefix + NatToString(idx + 1);
    assert t[|StepPrefix|..] == NatToString(idx + 1);
    NatToStringRoundTrip(idx + 1);
    t
  }

  /** Temporary image file of the frame for slice `idx`, directly inside the temporary directory. */
  function FrameFile(tempDir: string, idx: nat): (r: string)
    ensures PlainDir(tempDir) ==> Dirname(r) == tempDir
  {
    var name := "slice_" + NatToString(idx) + ".png";
    assert PlainDir(tempDir) ==> Dirname(Join(tempDir, name)) == tempDir by {
      if PlainDir(tempDir) {
        DigitsHaveNoSlash(NatToString(idx));
        NoSlashConcat("slice_", NatToString(idx));
        NoSlashConcat("slice_" + NatToString(idx), ".png");
        DirnameOfJoin(tempDir, name);
      }
    }
    Join(tempDir, name)
  }

  /**
   The frame file's own name is `slice_{idx}.png`, whatever the temporary
   directory: reading the digits back between the prefix and the extension
   gives the slice index.
   */
  lemma FrameFileName(tempDir: string, idx: nat)
    ensures var b := Basename(FrameFile(tempDir, idx));
      && |b| > 10 && b[..6] == "slice_" && b[|b| - 4..] == ".png"
      && ParseInt(b[6..|b| - 4]) == Some(idx)
  {
    var digits := NatToString(idx);
    var name := "slice_" + digits + ".png";
    assert !HasSlash(name) && name[6..|name| - 4] == digits by {
      DigitsHaveNoSlash(digits);
      NoSlashConcat("slice_", digits);
      NoSlashConcat("slice_" + digits, ".png");
    }
    BasenameOfJoin(tempDir, name);
    NatToStringRoundTrip(idx);
  }

  lemma DigitsHaveNoSlash(s: string)
    requires AllDigits(s)
    ensures !HasSlash(s)
  {
    forall i | 0 <= i < |s|
      ensures s[i] != '/'
    {
      assert IsDigit(s[i]);
    }
  }

  function TempGifPath(tempDir: string): string
  {
    Join(tempDir, "temp.gif")
  }

  /** The `filenames` list, appended to once per sampled index. */
  function FrameFiles(tempDir: string, idxs: seq<nat>): (r: seq<string>)
    ensures |r| == |idxs|
    ensures forall i :: 0 <= i < |idxs| ==> r[i] == FrameFile(tempDir, idxs[i])
  {
    if |idxs| == 0 then []
    else FrameFiles(tempDir, idxs[..|idxs| - 1]) + [FrameFile(tempDir, idxs[|idxs| - 1])]
  }

  /** The figure saved for each sampled index, in loop order. */
  function FrameSaves(tempDir: string, axis: int, idxs: seq<nat>, norm: Norm): (r: seq<Effect>)
    ensures |r| == |idxs|
    ensures forall i :: 0 <= i < |idxs| ==>
      r[i] == SaveFigure(FrameFile(tempDir, idxs[i]), FrameTitle(idxs[i]), axis, idxs[i], norm)
  {
    if |idxs| == 0 then []
    else
      var i := idxs[|idxs| - 1];
      FrameSaves(tempDir, axis, idxs[..|idxs| - 1], norm)
        + [SaveFigure(FrameFile(tempDir, i), FrameTitle(i), axis, i, norm)]
  }

  function Removals(paths: seq<string>): (r: seq<Effect>)
    ensures |r| == |paths|
    ensures forall i :: 0 <= i < |paths| ==> r[i] == Remove(paths[i])
  {
    if |paths| == 0 then [] else [Remove(paths[0])] + Removals(paths[1..])
  }

  /**
   Saving a file succeeds only when its directory exists. An empty directory
   part is the working directory and a separator-only one is the root; any
   other directory exists once some directory made with `os.makedirs` lies
   within it, since that call creates every missing parent.
   */
  predicate DirectoryExists(path: string, dirs: set<string>)
  {
    var d := Dirname(path);
    AllSlashes(d) || exists p :: p in dirs && WithinDir(p, d)
  }

  /** A plain directory with nothing created at or beneath it does not exist. */
  lemma DirectoryAbsent(path: string, dirs: set<string>)
    requires PlainDir(Dirname(path))
    requires forall p :: p in dirs ==> !WithinDir(p, Dirname(path))
    ensures !DirectoryExists(path, dirs)
  {
    var d := Dirname(path);
    assert !AllSlashes(d) by {
      assert d[|d| - 1] != '/';
    }
  }

  /**
   `plot_first_frame_from_npy` as written, against the set `dirs` of existing
   directories: an axis outside 0..2 or an empty array raises before anything
   is drawn; the figure of slice 0, captioned "Initial Condition", is saved
   only if the image's directory already exists, since nothing creates it.
   */
  function PlotFirstFrame(vol: Volume, imgPath: string, axis: int, dirs: set<string>): (r: Trace)
    ensures r.error.None? <==> ValidAxis(axis) && |vol.values| > 0 && DirectoryExists(imgPath, dirs)
    ensures !ValidAxis(axis) ==> r == Trace([], Some(AxisOutOfRange))
    ensures r.error == Some(MissingDirectory) <==>
      ValidAxis(axis) && |vol.values| > 0 && !DirectoryExists(imgPath, dirs)
    ensures r.error.Some? ==> r.effects == []
    ensures r.error.None? ==> |r.effects| == 1 && r.effects[0].SaveFigure?
    ensures r.error.None? ==> Writes(r.effects[0], imgPath) && r.effects[0].slice == 0
    ensures r.error.None? ==> r.effects[0].title == InitialTitle && r.effects[0].axis == axis
    ensures r.error.None? ==> r.effects[0].norm == ColourBounds(vol.values).value && ValidNorm(r.effects[0].norm)
  {
    if !ValidAxis(axis) then Trace([], Some(AxisOutOfRange))
    else
      match ColourBounds(vol.values)
      case Err(e) => Trace([], Some(e))
      case Ok(norm) =>
        if !DirectoryExists(imgPath, dirs) then Trace([], Some(MissingDirectory))
        else Trace([SaveFigure(imgPath, InitialTitle, axis, 0, norm)], None)
  }

  /**
   `plot_first_frame_from_npy` creating the image's directory first, as
   `create_gif_from_npy` does for the GIF's: the save then never depends on
   which directories already exist.
   */
  function PlotFirstFrameCorrected(vol: Volume, imgPath: string, axis: int): (r: Trace)
    ensures |r.effects| >= 1 && r.effects[0] == MakeDirs(Dirname(imgPath))
    ensures r.error.None? <==> ValidAxis(axis) && |vol.values| > 0
    ensures !ValidAxis(axis) ==> r == Trace([MakeDirs(Dirname(imgPath))], Some(AxisOutOfRange))
    ensures r.error.Some? ==> |r.effects| == 1
    ensures r.error.None? ==> |r.effects| == 2 && r.effects[1].SaveFigure?
    ensures r.error.None? ==> Writes(r.effects[1], imgPath) && r.effects[1].slice == 0
    ensures r.error.None? ==> r.effects[1].title == InitialTitle && r.effects[1].axis == axis
    ensures r.error.None? ==> r.effects[1].norm == ColourBounds(vol.values).value && ValidNorm(r.effects[1].norm)
  {
    var mk := MakeDirs(Dirname(imgPath));
    if !ValidAxis(axis) then Trace([mk], Some(AxisOutOfRange))
    else
      match ColourBounds(vol.values)
      case Err(e) => Trace([mk], Some(e))
      case Ok(norm) => Trace([mk, SaveFigure(imgPath, InitialTitle, axis, 0, norm)], None)
  }

  /**
   Whenever the image's directory exists, the corrected still renderer saves
   exactly the figure the original would have saved; otherwise the original
   fails where the corrected one succeeds.
   */
  lemma PlotFirstFrameAgreement(vol: Volume, imgPath: string, axis: int, dirs: set<string>)
    ensures var orig := PlotFirstFrame(vol, imgPath, axis, dirs);
      var fixed := PlotFirstFrameCorrected(vol, imgPath, axis);
      && (DirectoryExists(imgPath, dirs) ==> orig.error == fixed.error && orig.effects == fixed.effects[1..])
      && (!DirectoryExists(imgPath, dirs) && fixed.error.None? ==> orig.error == Some(MissingDirectory))
  {
  }

  /** The effects `create_gif_from_npy` performs up to and including encoding the temporary GIF. */
  function GifEncoding(gifPath: string, tempDir: string, axis: int, duration: real,
                       idxs: seq<nat>, norm: Norm): seq<Effect>
  {
    [MakeDirs(Dirname(gifPath)), MakeDirs(tempDir)]
      + FrameSaves(tempDir, axis, idxs, norm)
      + [WriteGif(TempGifPath(tempDir), FrameFiles(tempDir, idxs), duration)]
  }

  /**
   `create_gif_from_npy` as written. The output directory is created before the
   axis is checked; the frames and the temporary GIF are written; then the call
   to `os.move` raises, so nothing is ever moved to the GIF path and the
   temporary files stay behind.
   */
  function CreateGif(vol: Volume, gifPath: string, tempDir: string, axis: int,
                     duration: real, maxFrames: nat): (r: Trace)
    requires maxFrames >= 1
    ensures |r.effects| >= 1 && r.effects[0] == MakeDirs(Dirname(gifPath))
    ensures !ValidAxis(axis) ==> r == Trace([MakeDirs(Dirname(gifPath))], Some(AxisOutOfRange))
    ensures ValidAxis(axis) && |vol.values| == 0 ==> r == Trace([MakeDirs(Dirname(gifPath))], Some(EmptyArray))
    ensures ValidAxis(axis) && |vol.values| > 0 ==> r.error == Some(MissingMoveFunction)
    ensures NoCleanup(r.effects)
  {
    var mk := MakeDirs(Dirname(gifPath));
    if !ValidAxis(axis) then Trace([mk], Some(AxisOutOfRange))
    else
      var idxs := SampleIndices(NumSlices(vol, axis), maxFrames);
      match ColourBounds(vol.values)
      case Err(e) => Trace([mk], Some(e))
      case Ok(norm) =>
        EncodingHasNoCleanup(gifPath, tempDir, axis, duration, idxs, norm);
        Trace(GifEncoding(gifPath, tempDir, axis, duration, idxs, norm), Some(MissingMoveFunction))
  }

  /**
   `create_gif_from_npy` with the move done by a function that exists
   (`shutil.move`): after encoding, the temporary GIF is moved to the GIF path
   and the frame files and the temporary directory are removed.
   */
  function CreateGifCorrected(vol: Volume, gifPath: string, tempDir: string, axis: int,
                              duration: real, maxFrames: nat): (r: Trace)
    requires maxFrames >= 1
    ensures |r.effects| >= 1 && r.effects[0] == MakeDirs(Dirname(gifPath))
    ensures r.error.None? <==> ValidAxis(axis) && |vol.values| > 0
    ensures !ValidAxis(axis) ==> r == Trace([MakeDirs(Dirname(gifPath))], Some(AxisOutOfRange))
    ensures r.error.Some? ==> |r.effects| == 1
    ensures r.error.None? ==> r.effects[|r.effects| - 1] == RemoveDir(tempDir)
  {
    var mk := MakeDirs(Dirname(gifPath));
    if !ValidAxis(axis) then Trace([mk], Some(AxisOutOfRange))
    else
      var idxs := SampleIndices(NumSlices(vol, axis), maxFrames);
      match ColourBounds(vol.values)
      case Err(e) => Trace([mk], Some(e))
      case Ok(norm) =>
        var files := FrameFiles(tempDir, idxs);
        Trace(GifEncoding(gifPath, tempDir, axis, duration, idxs, norm)
                + [Move(TempGifPath(tempDir), gifPath)]
                + Removals(files)
                + [RemoveDir(tempDir)],
              None)
  }

  /**
   Five slices along axis 0 under a budget of three frames: slices 0, 1 and 2
   are drawn, captioned "Time Step 1" to "Time Step 3".
   */
  lemma FiveSlicesThreeCaptions(vol: Volume, gifPath: string, tempDir: string, duration: real)
    requires vol.d0 == 5 && |vol.values| > 0
    ensures var r := CreateGif(vol, gifPath, tempDir, 0, duration, 3);
      && |r.effects| == 6
      && r.effects[2].SaveFigure? && r.effects[2].slice == 0 && r.effects[2].title == "Time Step 1"
      && r.effects[3].SaveFigure? && r.effects[3].slice == 1 && r.effects[3].title == "Time Step 2"
      && r.effects[4].SaveFigure? && r.effects[4].slice == 2 && r.effects[4].title == "Time Step 3"
  {
    var idxs := SampleIndices(NumSlices(vol, 0), 3);
    SampleFiveIntoThree();
    var norm := ColourBounds(vol.values).value;
    CreateGifShape(vol, gifPath, tempDir, 0, duration, 3);
    EncodingLayout(gifPath, tempDir, 0, duration, idxs, norm);
    var saves := FrameSaves(tempDir, 0, idxs, norm);
    assert saves[0].title == FrameTitle(0) && saves[1].title == FrameTitle(1) && saves[2].title == FrameTitle(2);
    FirstCaptions();
  }

  lemma FirstCaptions()
    ensures FrameTitle(0) == "Time Step 1"
    ensures FrameTitle(1) == "Time Step 2"
    ensures FrameTitle(2) == "Time Step 3"
  {
    assert NatToString(1) == "1" && NatToString(2) == "2" && NatToString(3) == "3";
  }

  /** Different slices never share a temporary frame file. */
  lemma FrameFileInjective(tempDir: string, a: nat, b: nat)
    requires FrameFile(tempDir, a) == FrameFile(tempDir, b)
    ensures a == b
  {
    var x := "slice_" + NatToString(a) + ".png";
    var y := "slice_" + NatToString(b) + ".png";
    JoinInjective(tempDir, x, y);
    assert NatToString(a) == x[6..|x| - 4];
    assert NatToString(b) == y[6..|y| - 4];
    NatToStringRoundTrip(a);
    NatToStringRoundTrip(b);
  }

  /** Distinct sampled slices are saved to distinct temporary files, so no frame overwrites another. */
  lemma FrameFilesDistinct(tempDir: string, idxs: seq<nat>)
    requires StrictlyIncreasing(idxs)
    ensures forall i, j :: 0 <= i < j < |idxs| ==> FrameFiles(tempDir, idxs)[i] != FrameFiles(tempDir, idxs)[j]
  {
    var files := FrameFiles(tempDir, idxs);
    forall i, j | 0 <= i < j < |idxs|
      ensures files[i] != files[j]
    {
      if files[i] == files[j] {
        FrameFileInjective(tempDir, idxs[i], idxs[j]);
      }
    }
  }

  /**
   Every animation frame of one target is drawn with the colour scale of the
   whole volume, the same one the still image uses, whatever slice it shows;
   frame `i` shows sampled slice `i` with its 1-based caption and goes to its
   own temporary file; the encoder receives those files in sampler order.
   */
  lemma GifFramesFollowSampler(vol: Volume, gifPath: string, tempDir: string, imgPath: string,
                               axis: int, duration: real, maxFrames: nat)
    requires maxFrames >= 1
    requires ValidAxis(axis) && |vol.values| > 0
    ensures var idxs := SampleIndices(NumSlices(vol, axis), maxFrames);
      var r := CreateGif(vol, gifPath, tempDir, axis, duration, maxFrames);
      var stillNorm := PlotFirstFrameCorrected(vol, imgPath, axis).effects[1].norm;
      var frames := r.effects[2..|r.effects| - 1];
      && |r.effects| == |idxs| + 3
      && r.effects[1] == MakeDirs(tempDir)
      && |frames| == |idxs|
      && (forall i :: 0 <= i < |idxs| ==>
            && frames[i].SaveFigure?
            && frames[i].slice == idxs[i]
            && frames[i].title == FrameTitle(idxs[i])
            && frames[i].path == FrameFile(tempDir, idxs[i])
            && frames[i].axis == axis
            && frames[i].norm == ColourBounds(vol.values).value
            && frames[i].norm == stillNorm)
      && r.effects[|r.effects| - 1] == WriteGif(TempGifPath(tempDir), FrameFiles(tempDir, idxs), duration)
  {
    var idxs := SampleIndices(NumSlices(vol, axis), maxFrames);
    var r := CreateGif(vol, gifPath, tempDir, axis, duration, maxFrames);
    var norm := ColourBounds(vol.values).value;
    var saves := FrameSaves(tempDir, axis, idxs, norm);
    assert r.effects == GifEncoding(gifPath, tempDir, axis, duration, idxs, norm);
    assert r.effects[2..|r.effects| - 1] == saves;
  }

  /**
   As written, the GIF path is never written: whatever the input, the call ends
   in an error and no effect creates or overwrites the final path (unless the
   caller passes a temporary file's own path as the GIF path).
   */
  lemma CreateGifNeverPublishes(vol: Volume, gifPath: string, tempDir: string, axis: int,
                                duration: real, maxFrames: nat)
    requires maxFrames >= 1
    requires gifPath != TempGifPath(tempDir)
    requires forall i: nat :: gifPath != FrameFile(tempDir, i)
    ensures CreateGif(vol, gifPath, tempDir, axis, duration, maxFrames).error.Some?
    ensures NoWrites(CreateGif(vol, gifPath, tempDir, axis, duration, maxFrames).effects, gifPath)
  {
    if ValidAxis(axis) && |vol.values| > 0 {
      var idxs := SampleIndices(NumSlices(vol, axis), maxFrames);
      var norm := ColourBounds(vol.values).value;
      CreateGifShape(vol, gifPath, tempDir, axis, duration, maxFrames);
      EncodingAvoids(gifPath, tempDir, axis, duration, idxs, norm);
    }
  }

  /**
   With the move fixed, a successful call publishes the animation at the GIF
   path exactly once, by moving the fully encoded temporary GIF there, and no
   earlier effect touches the GIF path; afterwards every frame file is removed.
   */
  lemma CreateGifCorrectedPublishes(vol: Volume, gifPath: string, tempDir: string, axis: int,
                                    duration: real, maxFrames: nat)
    requires maxFrames >= 1
    requires ValidAxis(axis) && |vol.values| > 0
    requires gifPath != TempGifPath(tempDir)
    requires forall i: nat :: gifPath != FrameFile(tempDir, i)
    ensures var r := CreateGifCorrected(vol, gifPath, tempDir, axis, duration, maxFrames);
      var m := |SampleIndices(NumSlices(vol, axis), maxFrames)|;
      && r.error.None?
      && |r.effects| == 2 * m + 5
      && r.effects[m + 2].WriteGif? && r.effects[m + 2].path == TempGifPath(tempDir)
      && r.effects[m + 3] == Move(TempGifPath(tempDir), gifPath)
      && NoWrites(r.effects[..m + 3], gifPath)
      && NoWrites(r.effects[m + 4..], gifPath)
      && r.effects[m + 4..2 * m + 4] == Removals(r.effects[m + 2].frames)
  {
    var idxs := SampleIndices(NumSlices(vol, axis), maxFrames);
    var norm := ColourBounds(vol.values).value;
    var files := FrameFiles(tempDir, idxs);
    CorrectedShape(vol, gifPath, tempDir, axis, duration, maxFrames);
    EncodingLayout(gifPath, tempDir, axis, duration, idxs, norm);
    EncodingAvoids(gifPath, tempDir, axis, duration, idxs, norm);
    PublishLayout(GifEncoding(gifPath, tempDir, axis, duration, idxs, norm), files,
                  TempGifPath(tempDir), gifPath, tempDir, duration);
  }

  /**
   The layout of an encoding of `|files|` frames followed by the move, the
   removals and the directory removal, stated on the sequences alone.
   */
  lemma PublishLayout(enc: seq<Effect>, files: seq<string>, tmp: string, gifPath: string,
                      tempDir: string, duration: real)
    requires |enc| == |files| + 3
    requires enc[|files| + 2] == WriteGif(tmp, files, duration)
    requires NoWrites(enc, gifPath)
    ensures var e := enc + [Move(tmp, gifPath)] + Removals(files) + [RemoveDir(tempDir)];
      var m := |files|;
      && |e| == 2 * m + 5
      && e[m + 2].WriteGif? && e[m + 2].path == tmp
      && e[m + 3] == Move(tmp, gifPath)
      && NoWrites(e[..m + 3], gifPath)
      && NoWrites(e[m + 4..], gifPath)
      && e[m + 4..2 * m + 4] == Removals(e[m + 2].frames)
  {
    var rms := Removals(files);
    var e := enc + [Move(tmp, gifPath)] + rms + [RemoveDir(tempDir)];
    assert e[..|enc|] == enc;
    assert e[|enc| + 1..] == rms + [RemoveDir(tempDir)];
    assert e[|enc| + 1..|enc| + 1 + |rms|] == rms;
    NoWritesConcat(rms, [RemoveDir(tempDir)], gifPath);
  }

  lemma CreateGifShape(vol: Volume, gifPath: string, tempDir: string, axis: int,
                       duration: real, maxFrames: nat)
    requires maxFrames >= 1
    requires ValidAxis(axis) && |vol.values| > 0
    ensures CreateGif(vol, gifPath, tempDir, axis, duration, maxFrames)
      == Trace(GifEncoding(gifPath, tempDir, axis, duration, SampleIndices(NumSlices(vol, axis), maxFrames),
                           ColourBounds(vol.values).value),
               Some(MissingMoveFunction))
  {
  }

  /** The encoding phase: two directory creations, one save per sampled index, then the temporary GIF. */
  lemma EncodingLayout(gifPath: string, tempDir: string, axis: int, duration: real, idxs: seq<nat>, norm: Norm)
    ensures var e := GifEncoding(gifPath, tempDir, axis, duration, idxs, norm);
      && |e| == |idxs| + 3
      && e[0] == MakeDirs(Dirname(gifPath)) && e[1] == MakeDirs(tempDir)
      && e[2..|idxs| + 2] == FrameSaves(tempDir, axis, idxs, norm)
      && (forall i :: 0 <= i < |idxs| ==> e[i + 2] == FrameSaves(tempDir, axis, idxs, norm)[i])
      && e[|idxs| + 2] == WriteGif(TempGifPath(tempDir), FrameFiles(tempDir, idxs), duration)
  {
    var saves := FrameSaves(tempDir, axis, idxs, norm);
    var e := GifEncoding(gifPath, tempDir, axis, duration, idxs, norm);
    assert e[2..|idxs| + 2] == saves;
    forall i | 0 <= i < |idxs|
      ensures e[i + 2] == saves[i]
    {
      assert e[2..|idxs| + 2][i] == e[i + 2];
    }
  }

  /** No effect in `es` moves or removes anything. */
  predicate NoCleanup(es: seq<Effect>)
  {
    forall k :: 0 <= k < |es| ==> !es[k].Move? && !es[k].Remove? && !es[k].RemoveDir?
  }

  lemma EncodingHasNoCleanup(gifPath: string, tempDir: string, axis: int, duration: real, idxs: seq<nat>, norm: Norm)
    ensures NoCleanup(GifEncoding(gifPath, tempDir, axis, duration, idxs, norm))
  {
    var saves := FrameSaves(tempDir, axis, idxs, norm);
    assert NoCleanup(saves) by {
      forall k | 0 <= k < |saves|
        ensures !saves[k].Move? && !saves[k].Remove? && !saves[k].RemoveDir?
      {
        assert saves[k].SaveFigure?;
      }
    }
    EncodingShapeNoCleanup(Dirname(gifPath), tempDir, saves,
                           WriteGif(TempGifPath(tempDir), FrameFiles(tempDir, idxs), duration));
  }

  /** Two directory creations, any cleanup-free effects and one GIF write perform no cleanup. */
  lemma EncodingShapeNoCleanup(a: string, b: string, saves: seq<Effect>, w: Effect)
    requires NoCleanup(saves) && w.WriteGif?
    ensures NoCleanup([MakeDirs(a), MakeDirs(b)] + saves + [w])
  {
    NoCleanupConcat([MakeDirs(a), MakeDirs(b)], saves);
    NoCleanupConcat([MakeDirs(a), MakeDirs(b)] + saves, [w]);
  }

  lemma NoCleanupConcat(a: seq<Effect>, b: seq<Effect>)
    requires NoCleanup(a) && NoCleanup(b)
    ensures NoCleanup(a + b)
  {
  }

  /** The encoding phase writes only frame files and the temporary GIF. */
  lemma EncodingAvoids(gifPath: string, tempDir: string, axis: int, duration: real, idxs: seq<nat>, norm: Norm)
    requires gifPath != TempGifPath(tempDir)
    requires forall i: nat :: gifPath != FrameFile(tempDir, i)
    ensures NoWrites(GifEncoding(gifPath, tempDir, axis, duration, idxs, norm), gifPath)
  {
    SavesAvoid(tempDir, axis, idxs, norm, gifPath);
    EncodingShapeNoWrites(Dirname(gifPath), tempDir, FrameSaves(tempDir, axis, idxs, norm),
                          WriteGif(TempGifPath(tempDir), FrameFiles(tempDir, idxs), duration), gifPath);
  }

  /** Two directory creations, effects that avoid `p` and a write elsewhere never write `p`. */
  lemma EncodingShapeNoWrites(a: string, b: string, saves: seq<Effect>, w: Effect, p: string)
    requires NoWrites(saves, p) && !Writes(w, p)
    ensures NoWrites([MakeDirs(a), MakeDirs(b)] + saves + [w], p)
  {
    NoWritesConcat([MakeDirs(a), MakeDirs(b)], saves, p);
    NoWritesConcat([MakeDirs(a), MakeDirs(b)] + saves, [w], p);
  }

  lemma CorrectedShape(vol: Volume, gifPath: string, tempDir: string, axis: int,
                       duration: real, maxFrames: nat)
    requires maxFrames >= 1
    requires ValidAxis(axis) && |vol.values| > 0
    ensures var idxs := SampleIndices(NumSlices(vol, axis), maxFrames);
      var norm := ColourBounds(vol.values).value;
      var files := FrameFiles(tempDir, idxs);
      CreateGifCorrected(vol, gifPath, tempDir, axis, duration, maxFrames)
        == Trace(GifEncoding(gifPath, tempDir, axis, duration, idxs, norm)
                   + [Move(TempGifPath(tempDir), gifPath)] + Removals(files) + [RemoveDir(tempDir)], None)
  {
  }

  /** No effect in `es` creates or overwrites `p`. */
  predicate NoWrites(es: seq<Effect>, p: string)
  {
    forall k :: 0 <= k < |es| ==> !Writes(es[k], p)
  }

  /** Frame saves only write frame files, so they avoid any path that is not one. */
  lemma SavesAvoid(tempDir: string, axis: int, idxs: seq<nat>, norm: Norm, p: string)
    requires forall i: nat :: p != FrameFile(tempDir, i)
    ensures NoWrites(FrameSaves(tempDir, axis, idxs, norm), p)
  {
    var saves := FrameSaves(tempDir, axis, idxs, norm);
    forall k | 0 <= k < |saves|
      ensures !Writes(saves[k], p)
    {
      assert saves[k].path == FrameFile(tempDir, idxs[k]);
    }
  }

  lemma NoWritesConcat(a: seq<Effect>, b: seq<Effect>, p: string)
    requires NoWrites(a, p) && NoWrites(b, p)
    ensures NoWrites(a + b, p)
  {
  }
}

=== FILE: sampler.dfy ===
/**
 The frame-index sampler of `create_gif_from_npy`: which slices along the
 chosen axis become animation frames, given the slice count and a frame budget.
 */
module Sampler {

  /** `np.arange(start, stop, step)` for a positive step: start, start+step, ... while below stop. */
  function Arange(start: nat, stop: nat, step: nat): (r: seq<nat>)
    requires step >= 1
    ensures start >= stop ==> r == []
    ensures start < stop ==> 1 <= |r| <= stop - start && r[0] == start
    ensures forall k :: 0 <= k < |r| ==> start <= r[k] < stop
    decreases stop - start
  {
    if start >= stop then [] else [start] + Arange(start + step, stop, step)
  }

  /** Python's `s[:m]` for a non-negative `m`. */
  function Take<T>(s: seq<T>, m: nat): (r: seq<T>)
    ensures |r| == if m < |s| then m else |s|
    ensures forall i :: 0 <= i < |r| ==> r[i] == s[i]
  {
    if m < |s| then s[..m] else s
  }

  /**
   The `idx_map` of `create_gif_from_npy`: all indices when they fit in the
   budget, otherwise every `numSlices // maxFrames`-th index, cut to the budget.
   */
  function SampleIndices(numSlices: nat, maxFrames: nat): (r: seq<nat>)
    requires maxFrames >= 1
    ensures |r| <= maxFrames && |r| <= numSlices
    ensures numSlices > 0 ==> |r| > 0 && r[0] == 0
    ensures forall k :: 0 <= k < |r| ==> r[k] < numSlices
  {
    if numSlices > maxFrames then Take(Arange(0, numSlices, numSlices / maxFrames), maxFrames)
    else Arange(0, numSlices, 1)
  }

  /** Reference definition: the evenly strided sequence `0, stride, 2*stride, ...` of `count` entries. */
  function Strided(count: nat, stride: nat): (r: seq<nat>)
  {
    seq(count, i requires 0 <= i => i * stride)
  }

  predicate StrictlyIncreasing(s: seq<nat>)
  {
    forall i, j :: 0 <= i < j < |s| ==> s[i] < s[j]
  }

  /** Position `k` of `np.arange(start, stop, step)` exists exactly when `start + k*step < stop`, and holds that value. */
  lemma {:induction false} ArangeAt(start: nat, stop: nat, step: nat, k: nat)
    requires step >= 1
    ensures k < |Arange(start, stop, step)| <==> start + k * step < stop
    ensures k < |Arange(start, stop, step)| ==> Arange(start, stop, step)[k] == start + k * step
    decreases stop - start
  {
    if start < stop && k > 0 {
      ArangeAt(start + step, stop, step, k - 1);
      assert start + step + (k - 1) * step == start + k * step;
    }
  }

  /** `np.arange(start, stop, step)` equals the strided reference shifted by `start`, with ceil((stop-start)/step) entries. */
  lemma ArangeIsStrided(stop: nat, step: nat, count: nat)
    requires step >= 1
    requires (count == 0 || (count - 1) * step < stop) && count * step >= stop
    ensures Arange(0, stop, step) == Strided(count, step)
  {
    var a := Arange(0, stop, step);
    ArangeAt(0, stop, step, count);
    if count > 0 {
      ArangeAt(0, stop, step, count - 1);
    }
    assert |a| == count;
    forall k | 0 <= k < count
      ensures a[k] == k * step
    {
      ArangeAt(0, stop, step, k);
    }
  }

  /** Within budget the sampler returns exactly `0, 1, ..., numSlices-1` (empty for no slices). */
  lemma SampleWithinBudget(numSlices: nat, maxFrames: nat)
    requires maxFrames >= 1
    requires numSlices <= maxFrames
    ensures SampleIndices(numSlices, maxFrames) == Strided(numSlices, 1)
    ensures numSlices == 0 ==> SampleIndices(numSlices, maxFrames) == []
    ensures forall i :: 0 <= i < numSlices ==> SampleIndices(numSlices, maxFrames)[i] == i
  {
    ArangeIsStrided(numSlices, 1, numSlices);
  }

  lemma StrideBounds(n: nat, m: nat)
    requires 1 <= m < n
    ensures 1 <= n / m
    ensures m * (n / m) <= n
    ensures (m - 1) * (n / m) < n
  {
    var s := n / m;
    assert n == m * s + n % m;
    assert (m - 1) * s + s == m * s;
  }

  /** Over budget the sampler returns exactly `maxFrames` entries `0, s, 2s, ...` with stride `s = numSlices // maxFrames >= 1`. */
  lemma SampleOverBudget(numSlices: nat, maxFrames: nat)
    requires maxFrames >= 1
    requires numSlices > maxFrames
    ensures numSlices / maxFrames >= 1
    ensures SampleIndices(numSlices, maxFrames) == Strided(maxFrames, numSlices / maxFrames)
  {
    var s := numSlices / maxFrames;
    StrideBounds(numSlices, maxFrames);
    var a := Arange(0, numSlices, s);
    ArangeAt(0, numSlices, s, maxFrames - 1);
    assert |a| >= maxFrames;
    forall k | 0 <= k < maxFrames
      ensures a[k] == k * s
    {
      ArangeAt(0, numSlices, s, k);
    }
  }

  lemma StridedIncreasing(count: nat, stride: nat)
    requires stride >= 1
    ensures StrictlyIncreasing(Strided(count, stride))
  {
    var r := Strided(count, stride);
    forall i, j | 0 <= i < j < count
      ensures r[i] < r[j]
    {
      assert j * stride == i * stride + (j - i) * stride;
    }
  }

  /**
   Whatever the inputs, the sampled indices are strictly increasing, start at 0
   when there is any slice, are valid slice indices, number `min(numSlices, maxFrames)`,
   and are evenly spaced by a stride of at least 1.
   */
  lemma SampleWellFormed(numSlices: nat, maxFrames: nat)
    requires maxFrames >= 1
    ensures var r := SampleIndices(numSlices, maxFrames);
      && |r| == (if numSlices < maxFrames then numSlices else maxFrames)
      && |r| <= maxFrames
      && StrictlyIncreasing(r)
      && (numSlices > 0 ==> r[0] == 0)
      && (forall i :: 0 <= i < |r| ==> r[i] < numSlices)
      && (exists stride :: 1 <= stride && r == Strided(|r|, stride))
  {
    var r := SampleIndices(numSlices, maxFrames);
    if numSlices > maxFrames {
      var s := numSlices / maxFrames;
      SampleOverBudget(numSlices, maxFrames);
      StridedIncreasing(maxFrames, s);
      StrideBounds(numSlices, maxFrames);
      StridedBelow(maxFrames, s, numSlices);
    } else {
      SampleWithinBudget(numSlices, maxFrames);
      StridedIncreasing(numSlices, 1);
      StridedBelow(numSlices, 1, numSlices);
    }
    assert r[..] == r;
  }

  /** The strided sequence stays below any bound its last entry is below. */
  lemma StridedBelow(count: nat, stride: nat, bound: nat)
    requires count == 0 || (count - 1) * stride < bound
    ensures forall i :: 0 <= i < count ==> Strided(count, stride)[i] < bound
  {
    var r := Strided(count, stride);
    forall i | 0 <= i < count
      ensures r[i] < bound
    {
      MulMonotone(i, count - 1, stride);
    }
  }

  lemma MulMonotone(a: nat, b: nat, c: nat)
    requires a <= b
    ensures a * c <= b * c
  {
    assert b * c == a * c + (b - a) * c;
  }

  /** Five slices under a budget of three frames give `[0, 1, 2]`. */
  lemma SampleFiveIntoThree()
    ensures SampleIndices(5, 3) == [0, 1, 2]
  {
    SampleOverBudget(5, 3);
  }
}
